=== FILE: README.md ===
# Shelf Track bookstore core in Dafny

Shelf Track (`shelf_track_dec25.py`) is a small console inventory for an
ebook store. Its data lives in two SQLite tables: `book(id, title,
authorID, qty)` and `author(id, name, country)`. This project models that
data as two finite maps. Each menu operation that changes the data is a
pure function from the old maps to the new ones.

The modelled operations are:
- entering a book, with the author reconciliation of `input_author_details`;
- deleting a book, with its author clean-up;
- updating a book's title, its quantity, or its author through the author
  sub-menu (rename or repoint, country edit, shared-author confirmation);
- the four-digit id check of the id prompts;
- the plain-text stock format: the line parser of `load_stock_from_file`
  and the writer of `export_books_to_file`.

Python's `int()`, `str()`, `str.strip()`, `str.split(',')` and text-mode
line reading are written out over `seq<char>`.

Modules, one per file:

- `Outcomes` holds `Option` and `Result`.
- `Text` holds whitespace stripping, splitting and joining, and line
  reading and writing.
- `Numerals` holds `int()` on decimal text, `str()` of an integer, and the
  id range check.
- `StockFile` holds the line parser, the export line format and their
  round trip.
- `IdOrder` holds ascending order over id sets. This is the order in which
  SQLite scans an `INTEGER PRIMARY KEY` table when a query has no
  `ORDER BY`.
- `Inventory` holds the store, the `book INNER JOIN author` selection and
  the consistency predicates.
- `Enter`, `Delete` and `Update` hold the three editing operations.
- `Export` holds the export of a whole store.
- `Sessions` holds sequences of operations and what they preserve.
- `UpdateExamples` holds concrete witnesses of the author sub-menu's
  behaviour.

Decisions about unspecified or surprising behaviour:

- **Which author "first match" picks.** `update_auth_name` takes the first
  joined row whose author name matches. The query has no `ORDER BY`, so
  the row order is SQLite's scan order. The model takes the matching book
  with the least id.
- **Export order.** The export query has no `ORDER BY` either. Its rows are
  taken in ascending book id.
- **Books without an author row.** A book whose author row is missing has
  no row in the join. So `select_book` cannot select it: the model's
  `Select` returns `None`.
- **An entry whose author row is missing.** Say the author id is already
  named by a book but has no author row. This can only happen in a store
  seeded at start-up: from an outside stock file, or from the default
  stock inserted again into a database kept from an earlier session,
  where `executemany` keeps the rows it inserted before the first
  duplicate id (lines 129-137 and 156-165). Then `input_author_details` returns
  `None`, and `enter_book` fails on indexing it before inserting
  anything. This is modelled as `Err(AuthorRowMissing)`. A session stops
  there.
- **The author sub-menu's selection.** `update_author` reads the selected
  row once. After a rename has repointed the book, a later country edit in
  the same sub-menu still addresses the previous author.
- **The old author after a repoint.** `delete_book` removes an author row
  once its last book goes (lines 702-706). `update_auth_name` does no such
  clean-up: after a rename repoints a book to an existing author, the
  previous author row stays even when no book names it any more.
  `UpdateExamples.RepointLeavesOrphan` exhibits the orphan row that
  results.
- **Integer limits.** Python integers are unbounded, but two limits apply.
  - `int()` refuses a decimal numeral with more than 4300 digits, and
    `str()` refuses to print such an integer (Python's default
    `int_max_str_digits`). A stock line with such a field is skipped as
    invalid. The same answer at the update prompt is refused as invalid
    input.
  - Python's `sqlite3` binds an `int` as a 64-bit SQLite INTEGER. It raises
    `OverflowError` for any value outside -2^63..2^63-1. Three statements
    bind an operator's number without checking its range: the book INSERT
    of `enter_book` (lines 469-473), the qty UPDATE of `update_book`
    (lines 652-656), and the SELECT of `select_book` (lines 252-259),
    which binds the book id typed to choose the book to update or delete.
    `select_book` catches only `ValueError` (line 274), and neither
    `update_book` (line 633), `delete_book` (line 673) nor the main menu
    catches anything, so the program ends and nothing is written. The
    model returns `Err(QtyOutOfRange)` or `Err(IdOutOfRange)`, and a
    session stops there, as it does for a missing author row.

## Model

| member | source | states |
|---|---|---|
| Text.TrimLeft | shelf_track_dec25.py:24 | the result is a suffix of the input; everything dropped is whitespace; the result starts with a non-space |
| Text.TrimRight | shelf_track_dec25.py:24 | the result is a prefix of the input; everything dropped is whitespace; the result ends with a non-space |
| Text.Strip | shelf_track_dec25.py:24 | `strip()` leaves no whitespace at either end and never lengthens the text |
| Text.StripKeeps | shelf_track_dec25.py:33 | text with no whitespace at either end is left unchanged by `strip()` |
| Text.StripIdempotent | shelf_track_dec25.py:33 | stripping twice is stripping once |
| Text.Split | shelf_track_dec25.py:28 | `split(',')` gives at least one piece; the pieces contain no comma and joined with commas give back the line |
| Text.SplitJoin | shelf_track_dec25.py:28 | splitting comma-joined comma-free pieces gives back exactly those pieces |
| Text.Lines | shelf_track_dec25.py:22-23 | the lines read from a text file carry no `\n` and no `\r` |
| Text.LinesOfWriteLines | shelf_track_dec25.py:75-80 | reading back lines written each with a `\n` gives the same lines, when no line has a break of its own |
| Numerals.ParseInt | shelf_track_dec25.py:32-35 | `int()` succeeds exactly when the text, once the whitespace `int()` skips is dropped from both ends (every `str.isspace()` character except U+001C..U+001F), is an optional sign followed by digits with single underscores between digits, at most 4300 digits in all |
| Numerals.ParseIntOfIntToString | shelf_track_dec25.py:79 | `int(str(n)) == n` for every integer, negative ones included, whose numeral has at most 4300 digits; `int()` refuses any longer numeral |
| Numerals.Int64Printable | shelf_track_dec25.py:60-61 | every 64-bit integer the book table holds prints in at most 19 digits, so `str()` never refuses it |
| Numerals.AcceptId | shelf_track_dec25.py:323-330 | an id prompt accepts a line exactly when it parses as an integer in 1000..9999, and returns that integer |
| Numerals.SeparatorRefused | shelf_track_dec25.py:323-330 | a line starting with one of U+001C..U+001F never parses, so an id prompt asks again and the update prompt changes nothing, although `str.strip()` would drop those characters |
| Numerals.AcceptIdOfNumeral | shelf_track_dec25.py:355-362 | typing the numeral of `n` is accepted exactly when 1000 <= n <= 9999 |
| Numerals.IdBoundaries | shelf_track_dec25.py:761-768 | 999 and 10000 are refused; 1000 and 9999 are accepted |
| StockFile.ClassifyLine | shelf_track_dec25.py:24-27 | a line is skipped as blank exactly when it strips to nothing and as a comment exactly when it strips to text starting with `#`; a row's title has no comma and no surrounding whitespace |
| StockFile.ClassifyOutcomes | shelf_track_dec25.py:28-38 | any other line is skipped as malformed exactly when it does not have four comma fields, and as invalid exactly when id, authorID or qty is not an integer; otherwise it yields those integers and the stripped title |
| StockFile.ParseFieldsOutcomes | shelf_track_dec25.py:32-36 | four fields make a row exactly when fields 0, 2 and 3 parse as integers; the row holds them and the stripped title |
| StockFile.RowsOfLine | shelf_track_dec25.py:36 | a line contributes at most one row: its row when it has one, nothing otherwise |
| StockFile.LoadAppend | shelf_track_dec25.py:23-36 | the loader keeps file order: loading two parts of a file gives the first part's rows followed by the second's |
| StockFile.LoadLength | shelf_track_dec25.py:23-36 | the loader yields at most one row per line |
| StockFile.HeadersLoadNothing | shelf_track_dec25.py:76-77 | the two header lines of an export are comments and load no row |
| StockFile.ClassifyFormatRow | shelf_track_dec25.py:79 | the export line of a book parses back to the same row when the title is clean and each number prints |
| StockFile.ExportLoadRoundTrip | shelf_track_dec25.py:76-80 | loading an exported file gives the same rows in the same order, when every title has no comma, no line break and no surrounding whitespace, and every number prints |
| Export.ExportRows | shelf_track_dec25.py:60-61 | the exported rows list every book exactly once, in ascending id, each with its own title, authorID and qty |
| Export.ExportBooks | shelf_track_dec25.py:60-65 | nothing is exported exactly when the book table is empty |
| Export.ExportBooksRoundTrip | shelf_track_dec25.py:75-80 | loading the export of a store with clean titles and 64-bit numbers gives back all its books in id order |
| IdOrder.Least | shelf_track_dec25.py:526-533 | the first id a scan meets is the least one of the set |
| IdOrder.SortedIds | shelf_track_dec25.py:60-61 | a table scan lists every id once, in strictly increasing order |
| Inventory.CountZeroIffUnreferenced | shelf_track_dec25.py:401-407 | the `COUNT()` of books with an author id is zero exactly when no book names it |
| Inventory.Select | shelf_track_dec25.py:252-262 | a book is selected exactly when it exists and its author row exists, and the selection carries the book's and the author's fields |
| Inventory.SelectConsistent | shelf_track_dec25.py:252-262 | when every book's author row exists, every book can be selected |
| Enter.AuthorDetails | shelf_track_dec25.py:393-428 | the typed name and country are used when no book names the author id; otherwise the author row on file is used, and there is none when that row is missing |
| Enter.FreshIffUnreferenced | shelf_track_dec25.py:422-427 | the typed author data is used, whatever it is, exactly when no book referred to the author id beforehand |
| Enter.InsertAuthorIfAbsent | shelf_track_dec25.py:479-486 | the author insert adds the row only when the id is absent, and never overwrites an existing row |
| Enter.InsertAuthorIdempotent | shelf_track_dec25.py:479-486 | repeating the author insert changes nothing |
| Enter.EnterBook | shelf_track_dec25.py:449-494 | an entry fails exactly on an id outside 1000..9999, a taken book id, a named author without a row, or then a qty outside 64 bits; otherwise it adds exactly the new book, adds an author row only for a new author id, and keeps every existing author row |
| Enter.EnterPreservesConsistent | shelf_track_dec25.py:469-486 | entering a book keeps every author referenced and every book's author on file |
| Enter.EnterKeepsNoDangling | shelf_track_dec25.py:469-486 | entering a book keeps every book's author row on file |
| Enter.EnterFindsAuthorRow | shelf_track_dec25.py:463-466 | when every book's author row exists, an entry never fails for a missing author row |
| Enter.EnterKeepsSqlIntegers | shelf_track_dec25.py:469-473 | a successful entry keeps every id, authorID and qty of the book table within 64 bits |
| Delete.DeleteBook | shelf_track_dec25.py:665-726 | an id outside 64 bits fails before any row is read (the SELECT at 252-259); an unselectable id deletes nothing; without confirmation nothing changes; with it, exactly the chosen book goes, its author goes exactly when no remaining book names it, and every other author row is kept unchanged |
| Delete.DeleteSoleBookRemovesAuthor | shelf_track_dec25.py:702-706 | deleting an author's only book removes the author too |
| Delete.DeleteSharedBookKeepsAuthors | shelf_track_dec25.py:708-710 | deleting one of several books by an author keeps every author row |
| Delete.DeletePreservesConsistent | shelf_track_dec25.py:690-711 | a deletion keeps every author referenced and every book's author on file |
| Delete.DeleteKeepsNoDangling | shelf_track_dec25.py:690-711 | a deletion keeps every remaining book's author row on file |
| Update.UpdateTitle | shelf_track_dec25.py:501-511 | a title update changes only that book's title, to any text; all other books and all authors stay |
| Update.DuplicateTitleAccepted | shelf_track_dec25.py:501-511 | a book may be given another book's title |
| Update.UpdateQty | shelf_track_dec25.py:614-623 | a quantity update fails exactly when the quantity is outside 64 bits; otherwise it changes only that book's quantity, negatives included, and all other books and all authors stay |
| Update.TitleUpdatePreservesConsistent | shelf_track_dec25.py:506-510 | a title update keeps the store consistent |
| Update.QtyUpdatePreservesConsistent | shelf_track_dec25.py:619-622 | a quantity update keeps the store consistent |
| Update.FirstMatch | shelf_track_dec25.py:526-533 | a match exists exactly when some joined row carries the name; it is the author of the least such book |
| Update.UpdateAuthName | shelf_track_dec25.py:514-557 | a name already on file repoints only the selected book, to the author of the first matching joined row, and changes no author row; a new name renames the selected author row in place and changes no book; no book ever names an author id no book named before |
| Update.RepointWhenNameOnFile | shelf_track_dec25.py:535-548 | a rename to a name on file changes exactly the selected book's author id, to the first match's |
| Update.UpdateCountry | shelf_track_dec25.py:603-606 | a country edit changes only that author's country |
| Update.CountryEditReflectedByAllBooks | shelf_track_dec25.py:603-606 | after a country edit every book by that author shows the new country and the same name |
| Update.ApplyEdit | shelf_track_dec25.py:599-606 | one sub-menu choice keeps every book's title and quantity, changes no book but the selected one and no author but the selected one, introduces no new author id, and keeps every book's author on file |
| Update.ApplyAuthorEdits | shelf_track_dec25.py:593-611 | no choice changes nothing; any run of choices stays within the same frame as a single one and keeps every book's author on file |
| Update.ApplySingleEdit | shelf_track_dec25.py:599-606 | choice `1` is `update_auth_name` with the selection; choice `2` is the country edit of the author id read at selection |
| Update.ApplyAuthorEditsAppend | shelf_track_dec25.py:593-611 | the sub-menu applies its choices in order, each to the store the earlier ones left, with the same selection throughout |
| Update.UpdateAuthor | shelf_track_dec25.py:560-611 | when another book shares the author and the operator does not confirm, nothing changes; otherwise the sub-menu choices are applied in order with the selection read at the start |
| Update.SharedIffOtherBook | shelf_track_dec25.py:567-578 | the author's book count exceeds one exactly when a book other than the selected one names that author |
| Update.AuthorFieldEditsPreserveConsistent | shelf_track_dec25.py:550-554 | a country edit, or a rename to a name not on file, keeps the store consistent |
| Update.ParseUpdateChoice | shelf_track_dec25.py:635-656 | `t` or `T` asks for the title, `a` or `A` for the author sub-menu; `x`, `X` and any other answer that does not parse as an integer change nothing; any other answer is a quantity exactly when it parses, and the quantity is that integer |
| Update.SeparatorAnswerCancels | shelf_track_dec25.py:651-656 | an answer starting with one of U+001C..U+001F to the update sub-menu is no quantity and changes nothing |
| Update.NumeralAsksForQuantity | shelf_track_dec25.py:651-656 | typing the numeral of an integer, negative ones included, requests that quantity when it has at most 4300 digits, and is refused otherwise |
| Update.UpdateBook | shelf_track_dec25.py:626-658 | an id outside 64 bits fails before any row is read (the SELECT at 252-259); an unselectable id fails; a quantity outside 64 bits fails; otherwise cancel changes nothing, title and quantity requests are exactly the title and quantity updates, and an author request is the shared-author gate and sub-menu of `update_author`; no book or author id is added or removed |
| Update.UpdateBookKeepsSqlIntegers | shelf_track_dec25.py:642-654 | every successful update keeps every id, authorID and qty of the book table within 64 bits |
| Update.UpdateBookKeepsNoDangling | shelf_track_dec25.py:626-662 | every update keeps every book's author row on file |
| Update.FieldUpdateKeepsConsistent | shelf_track_dec25.py:642-654 | a title or quantity update, or a cancel, keeps the store consistent |
| UpdateExamples.RenameToExistingNameRepoints | shelf_track_dec25.py:535-548 | renaming a book's author to another author's name repoints the book to that author |
| UpdateExamples.RepointLeavesOrphan | shelf_track_dec25.py:535-548 | a repoint in a consistent store can leave the previous author row with no book naming it |
| UpdateExamples.CountryEditAfterRepointTargetsOldAuthor | shelf_track_dec25.py:593-606 | after a repoint in the same sub-menu, a country edit changes the previous author, not the book's new one |
| Sessions.Step | shelf_track_dec25.py:876-883 | a failed entry changes nothing and a successful one adds exactly its book id; an update keeps every book and author id; a deletion removes no book but the chosen one, and removes it when confirmed, within 64 bits and selectable |
| Sessions.OnlyOverflowCrashes | shelf_track_dec25.py:252-274 | when every book's author row exists, an operation ends the program exactly when it binds a number outside 64 bits: the id selecting a book to update or delete, the qty of an entry with valid unused ids (463-473), or the qty of an update of an existing book (652-656) |
| Sessions.NoHaltWithoutOverflow | shelf_track_dec25.py:861-883 | when every book's author row exists, a session whose quantities and selected book ids all fit 64 bits runs to its end |
| Sessions.RunKeepsNoDangling | shelf_track_dec25.py:876-883 | any sequence of entries, updates and deletions keeps every book's author row on file |
| Sessions.RunKeepsConsistent | shelf_track_dec25.py:667-670 | a sequence of entries, deletions and title or quantity updates keeps every author row referenced and every book's author on file |
| Sessions.RunAppend | shelf_track_dec25.py:861-883 | running two sequences in turn is running their concatenation, unless the first ends the program (a missing author row, or a quantity or selected book id outside 64 bits), when the second never runs |
| Sessions.OutOfRangeSelectionHalts | shelf_track_dec25.py:252-274 | choosing a book to update or delete by an id outside 64 bits ends the program with the store unchanged, whatever operations were to follow |
| Sessions.StepKeepsSqlIntegers | shelf_track_dec25.py:876-883 | every operation keeps every id, authorID and qty of the book table within 64 bits |
| Sessions.RunKeepsSqlIntegers | shelf_track_dec25.py:861-883 | a whole session keeps the book table within 64 bits, so its export always reads back |

## Left out

- SQLite connection, cursor, commit and `CREATE TABLE` handling. The two
  tables are the two maps of `Inventory.Store`.
- Seeding the tables with the default stock (`populate_book_table`,
  `populate_author_table`). Its partial-insert behaviour belongs to SQLite.
- The interactive prompts (`input_title`, `input_book_id`,
  `input_author_id`, `input_book_qty`, `select_book` and the yes/no
  confirmations). Their accepted answers are parameters of the operations.
  A confirmation is a `bool`. A book id that is out of range or already
  taken is an error that leaves the store unchanged, as the prompt asks
  again.
- The retry calls in `input_title`, `input_book_id` and `input_author_id`
  (lines 310, 342, 386). These recurse and then return `None` in place of
  the retried answer. They are not modelled.
- The duplicate-title check in `input_title` (lines 289-310). It compares
  the title with `book.id`, so no duplicate title is ever detected. SQLite
  converts the bound text to a number for that comparison. So the
  confirm-or-retry prompt fires only for a title that is the numeral of an
  existing joined book id, such as "3001". The title is a parameter of
  `EnterBook`.
- The line terminator of the export. A file opened with `'w'` writes
  `os.linesep` for each `"\n"`, so on Windows each line ends in `"\r\n"`.
  `Text.WriteLines` writes `"\n"` only. Reading back with universal
  newlines gives the same lines either way.
- Overflow during seeding and loading. A stock line may carry an integer
  outside 64 bits. It is loaded as a row, and only the seeding insert
  (lines 129-133) would raise; seeding is not modelled.
- The quantity prompt of `enter_book` (`input_book_qty`) asks again for a
  numeral over 4300 digits. `EnterBook` takes the accepted quantity as a
  parameter, and a larger one is outside 64 bits anyway.
- File opening, the overwrite confirmation, and file-not-found and
  encoding errors (lines 21-22, 40-45, 57-75). A file is its text, and the
  model keeps only the line format.
- Search, listing and detail views (`search_*`, `display_*`,
  `view_details`, `detail`). They read the tables and change nothing.
- The main menu's dispatch and all printed messages (lines 860-905). A
  session is modelled as a sequence of operations.
- Delete.DeleteBook and Update.UpdateBook: an id is an integer, and the
  model reports any id outside 64 bits as the crash of `select_book`'s
  SELECT. A typed numeral of more than 4300 digits never gets there:
  `int()` refuses it at line 252, the `ValueError` is caught at line 274,
  and the prompt asks again. The id is the prompt's accepted answer.
- Numerals.ParseInt: accepts only ASCII digits. Python's `int()` also
  accepts other Unicode decimal digits, which the stock format never
  writes.
- Update.FirstMatch: assumes that SQLite scans joined rows in ascending
  book id. SQLite does not promise this order for a query without
  `ORDER BY`.
- Export.ExportRows: assumes the same ascending scan order for the export
  query.

=== FILE: delete.dfy ===
/** Deleting a book (`delete_book`) with the author clean-up that
    follows it. */
module Delete {
  import opened Outcomes
  import opened Inventory
  import Numerals

  datatype DeleteError =
    | IdOutOfRange   // the selecting SELECT cannot bind the id as a 64-bit integer
    | NoSuchBook     // the id selects no joined book row

  /** Deletes the selected book once the operator confirms; then counts
      the books left with its author id and deletes the author row when
      none is left. An id outside the 64-bit range never reaches a row:
      binding it in `select_book` raises `OverflowError`. */
  function DeleteBook(s: Store, bookId: int, confirmed: bool): (r: Result<Store, DeleteError>)
    ensures r == Err(IdOutOfRange) <==> !Numerals.FitsInt64(bookId)
    ensures r == Err(NoSuchBook) <==> Numerals.FitsInt64(bookId) && Select(s, bookId).None?
    ensures r.Ok? && !confirmed ==> r.value == s
    ensures r.Ok? && confirmed ==>
      var a := s.books[bookId].authorId;
      && r.value.books == s.books - {bookId}
      && (a in r.value.authors <==> Referenced(s.books - {bookId}, a))
      && r.value.authors - {a} == s.authors - {a}
      && (a in r.value.authors ==> r.value.authors[a] == s.authors[a])
  {
    if !Numerals.FitsInt64(bookId) then Err(IdOutOfRange)
    else match Select(s, bookId)
    case None => Err(NoSuchBook)
    case Some(sel) =>
      if !confirmed then Ok(s)
      else
        var books := s.books - {bookId};
        CountZeroIffUnreferenced(books, sel.authorId);
        var authors := if CountByAuthor(books, sel.authorId) == 0 then s.authors - {sel.authorId} else s.authors;
        Ok(Store(books, authors))
  }

  /** Deleting the only book of an author removes the author too. */
  lemma DeleteSoleBookRemovesAuthor(s: Store, bookId: int)
    requires Numerals.FitsInt64(bookId) && Select(s, bookId).Some?
    requires forall id :: id in s.books && id != bookId ==> s.books[id].authorId != s.books[bookId].authorId
    ensures DeleteBook(s, bookId, true).Ok?
    ensures s.books[bookId].authorId !in DeleteBook(s, bookId, true).value.authors
  {
  }

  /** Deleting one of several books by an author keeps every author row. */
  lemma DeleteSharedBookKeepsAuthors(s: Store, bookId: int, other: int)
    requires Numerals.FitsInt64(bookId) && Select(s, bookId).Some?
    requires other in s.books && other != bookId && s.books[other].authorId == s.books[bookId].authorId
    ensures DeleteBook(s, bookId, true).Ok?
    ensures DeleteBook(s, bookId, true).value.authors == s.authors
  {
    var a := s.books[bookId].authorId;
    assert (s.books - {bookId})[other].authorId == a;
    var t := DeleteBook(s, bookId, true).value;
    assert t.authors.Keys == s.authors.Keys;
  }

  /** Deleting a book keeps every author referenced and every book's
      author on file. */
  lemma DeletePreservesConsistent(s: Store, bookId: int, confirmed: bool)
    requires Consistent(s)
    requires DeleteBook(s, bookId, confirmed).Ok?
    ensures Consistent(DeleteBook(s, bookId, confirmed).value)
  {
    var t := DeleteBook(s, bookId, confirmed).value;
    if confirmed {
      var a := s.books[bookId].authorId;
      forall x | x in t.authors
        ensures Referenced(t.books, x)
      {
        if x != a {
          assert x in s.authors - {a};
          var id :| id in s.books && s.books[id].authorId == x;
          assert id != bookId && id in t.books;
        }
      }
      forall id | id in t.books
        ensures t.books[id].authorId in t.authors
      {
        var x := t.books[id].authorId;
        if x == a {
          assert Referenced(s.books - {bookId}, a);
        } else {
          assert x in s.authors - {a};
        }
      }
    }
  }

  /** Deleting a book leaves every remaining book's author row on file. */
  lemma DeleteKeepsNoDangling(s: Store, bookId: int, confirmed: bool)
    requires NoDangling(s)
    requires DeleteBook(s, bookId, confirmed).Ok?
    ensures NoDangling(DeleteBook(s, bookId, confirmed).value)
  {
    var t := DeleteBook(s, bookId, confirmed).value;
    if confirmed {
      var a := s.books[bookId].authorId;
      forall id | id in t.books
        ensures t.books[id].authorId in t.authors
      {
        var x := t.books[id].authorId;
        if x == a {
          assert Referenced(s.books - {bookId}, a);
        } else {
          assert x in s.authors - {a};
        }
      }
    }
  }
}

=== FILE: enter.dfy ===
/** Entering a book (`enter_book`) and the author reconciliation it
    relies on (`input_author_details`). */
module Enter {
  import opened Outcomes
  import opened Inventory
  import Numerals

  datatype EnterError =
    | InvalidId          // an id outside 1000..9999: the prompt repeats
    | DuplicateBookId    // the book id is taken: the prompt repeats
    | AuthorRowMissing   // books name the author id but no author row exists
    | QtyOutOfRange      // the book INSERT cannot bind the qty as a 64-bit integer

  /** The author data used for a new book: freshly typed `name` and
      `country` when no book refers to the id yet, otherwise the author
      row on file (`None` when that row is missing, where the source
      fails on indexing `None`). */
  function AuthorDetails(s: Store, authorId: int, name: string, country: string): (r: Option<Author>)
    ensures !Referenced(s.books, authorId) ==> r == Some(Author(name, country))
    ensures Referenced(s.books, authorId) ==>
      (r.Some? <==> authorId in s.authors) && (r.Some? ==> r.value == s.authors[authorId])
  {
    CountZeroIffUnreferenced(s.books, authorId);
    if CountByAuthor(s.books, authorId) == 0 then Some(Author(name, country))
    else if authorId in s.authors then Some(s.authors[authorId])
    else None
  }

  /** The typed author data is used, whatever it is, exactly when no book
      referred to the author id beforehand. */
  lemma FreshIffUnreferenced(s: Store, authorId: int)
    ensures (forall name, country :: AuthorDetails(s, authorId, name, country) == Some(Author(name, country)))
            <==> !Referenced(s.books, authorId)
  {
    if Referenced(s.books, authorId) {
      var name := if authorId in s.authors then s.authors[authorId].name + "?" else "";
      assert AuthorDetails(s, authorId, name, "") != Some(Author(name, ""));
    }
  }

  /** `INSERT INTO author` whose duplicate-key error is swallowed: an
      existing row is kept as it is. */
  function InsertAuthorIfAbsent(authors: map<int, Author>, authorId: int, data: Author): (r: map<int, Author>)
    ensures r.Keys == authors.Keys + {authorId}
    ensures forall a :: a in authors ==> r[a] == authors[a]
    ensures authorId !in authors ==> r[authorId] == data
  {
    if authorId in authors then authors else authors[authorId := data]
  }

  /** Re-running the insert changes nothing: the swallowed duplicate key
      makes it idempotent. */
  lemma InsertAuthorIdempotent(authors: map<int, Author>, authorId: int, data: Author, again: Author)
    ensures InsertAuthorIfAbsent(InsertAuthorIfAbsent(authors, authorId, data), authorId, again)
            == InsertAuthorIfAbsent(authors, authorId, data)
  {
  }

  /** Enters a new book. The ids and the quantity are the values the
      prompts accepted; `name` and `country` are what the operator would
      type for a new author. The two inserts come last: the author data
      is indexed first, then the book row is bound, and either step can
      raise and end the program. */
  function EnterBook(s: Store, title: string, qty: int, bookId: int, authorId: int,
                     name: string, country: string): (r: Result<Store, EnterError>)
    ensures r == Err(InvalidId) <==> !(Numerals.ValidId(bookId) && Numerals.ValidId(authorId))
    ensures r == Err(DuplicateBookId) <==>
      Numerals.ValidId(bookId) && Numerals.ValidId(authorId) && bookId in s.books
    ensures r == Err(AuthorRowMissing) <==>
      && Numerals.ValidId(bookId) && Numerals.ValidId(authorId) && bookId !in s.books
      && Referenced(s.books, authorId) && authorId !in s.authors
    ensures r == Err(QtyOutOfRange) <==>
      && Numerals.ValidId(bookId) && Numerals.ValidId(authorId) && bookId !in s.books
      && !(Referenced(s.books, authorId) && authorId !in s.authors)
      && !Numerals.FitsInt64(qty)
    ensures r.Ok? ==>
      && Numerals.FitsInt64(qty)
      && bookId !in s.books
      && r.value.books == s.books[bookId := Book(title, authorId, qty)]
      && r.value.authors.Keys == s.authors.Keys + {authorId}
      && (forall a :: a in s.authors ==> r.value.authors[a] == s.authors[a])
      && (authorId !in s.authors ==> r.value.authors[authorId] == Author(name, country))
  {
    if !(Numerals.ValidId(bookId) && Numerals.ValidId(authorId)) then Err(InvalidId)
    else if bookId in s.books then Err(DuplicateBookId)
    else
      match AuthorDetails(s, authorId, name, country)
      case None => Err(AuthorRowMissing)
      case Some(data) =>
        if !Numerals.FitsInt64(qty) then Err(QtyOutOfRange)
        else Ok(Store(s.books[bookId := Book(title, authorId, qty)],
                 InsertAuthorIfAbsent(s.authors, authorId, data)))
  }

  /** Entering a book keeps every author referenced and every book's
      author on file. */
  lemma EnterPreservesConsistent(s: Store, title: string, qty: int, bookId: int, authorId: int,
                                 name: string, country: string)
    requires Consistent(s)
    requires EnterBook(s, title, qty, bookId, authorId, name, country).Ok?
    ensures Consistent(EnterBook(s, title, qty, bookId, authorId, name, country).value)
  {
    var t := EnterBook(s, title, qty, bookId, authorId, name, country).value;
    forall a | a in t.authors
      ensures Referenced(t.books, a)
    {
      if a == authorId {
        assert t.books[bookId].authorId == a;
      } else {
        var id :| id in s.books && s.books[id].authorId == a;
        assert id != bookId && t.books[id] == s.books[id];
      }
    }
  }

  /** When every book's author row is on file, an author id already named
      by a book always has its row, so an entry never meets a missing one. */
  lemma EnterFindsAuthorRow(s: Store, title: string, qty: int, bookId: int, authorId: int,
                                      name: string, country: string)
    requires NoDangling(s)
    ensures EnterBook(s, title, qty, bookId, authorId, name, country) != Err(AuthorRowMissing)
  {
    if Referenced(s.books, authorId) {
      var id :| id in s.books && s.books[id].authorId == authorId;
    }
  }

  /** Entering a book leaves every book's author row on file. */
  lemma EnterKeepsNoDangling(s: Store, title: string, qty: int, bookId: int, authorId: int,
                             name: string, country: string)
    requires NoDangling(s)
    requires EnterBook(s, title, qty, bookId, authorId, name, country).Ok?
    ensures NoDangling(EnterBook(s, title, qty, bookId, authorId, name, country).value)
  {
    var t := EnterBook(s, title, qty, bookId, authorId, name, country).value;
    forall id | id in t.books
      ensures t.books[id].authorId in t.authors
    {
      if id != bookId {
        assert t.books[id] == s.books[id];
      }
    }
  }

  /** Entering a book keeps every number in the book table a SQLite
      INTEGER: the ids passed the range check and the qty was bound. */
  lemma EnterKeepsSqlIntegers(s: Store, title: string, qty: int, bookId: int, authorId: int,
                              name: string, country: string)
    requires SqlIntegers(s)
    requires EnterBook(s, title, qty, bookId, authorId, name, country).Ok?
    ensures SqlIntegers(EnterBook(s, title, qty, bookId, authorId, name, country).value)
  {
    var t := EnterBook(s, title, qty, bookId, authorId, name, country).value;
    forall id | id in t.books
      ensures Numerals.FitsInt64(id) && Numerals.FitsInt64(t.books[id].authorId)
      ensures Numerals.FitsInt64(t.books[id].qty)
    {
      if id != bookId {
        assert t.books[id] == s.books[id];
      }
    }
  }
}

=== FILE: export.dfy ===
/** Exporting the book table to a stock file (`export_books_to_file`). */
module Export {
  import opened Outcomes
  import opened Inventory
  import IdOrder
  import Text
  import Numerals
  import StockFile

  /** One book as a row of the export file. */
  function RowOf(id: int, b: Book): (r: StockFile.StockRow)
    ensures r.id == id && Book(r.title, r.authorId, r.qty) == b
  {
    StockFile.StockRow(id, b.title, b.authorId, b.qty)
  }

  /** The rows for the given ids, in the given order. */
  function RowsFor(books: map<int, Book>, ids: seq<int>): (rows: seq<StockFile.StockRow>)
    requires forall k :: 0 <= k < |ids| ==> ids[k] in books
    ensures |rows| == |ids|
    ensures forall k :: 0 <= k < |rows| ==> rows[k] == RowOf(ids[k], books[ids[k]])
  {
    if ids == [] then [] else [RowOf(ids[0], books[ids[0]])] + RowsFor(books, ids[1..])
  }

  /** `rows` lists every book of `books` exactly once, in ascending id
      order, each row carrying the book's own fields. */
  predicate ListsBooks(rows: seq<StockFile.StockRow>, books: map<int, Book>) {
    && |rows| == |books|
    && (forall k :: 0 <= k < |rows| ==>
          rows[k].id in books && books[rows[k].id] == Book(rows[k].title, rows[k].authorId, rows[k].qty))
    && (forall id :: id in books ==> exists k :: 0 <= k < |rows| && rows[k].id == id)
    && (forall i, j :: 0 <= i < j < |rows| ==> rows[i].id < rows[j].id)
  }

  /** The rows of `SELECT id, title, authorID, qty FROM book`, in the
      table's key order. */
  function ExportRows(s: Store): (rows: seq<StockFile.StockRow>)
    ensures ListsBooks(rows, s.books)
  {
    var ids := IdOrder.SortedIds(s.books.Keys);
    RowsForKeys(s.books, ids);
    RowsFor(s.books, ids)
  }

  /** Rows built from an ascending listing of all the keys list the books. */
  lemma RowsForKeys(books: map<int, Book>, ids: seq<int>)
    requires |ids| == |books.Keys|
    requires forall k :: 0 <= k < |ids| ==> ids[k] in books
    requires forall x :: x in books ==> x in ids
    requires forall i, j :: 0 <= i < j < |ids| ==> ids[i] < ids[j]
    ensures ListsBooks(RowsFor(books, ids), books)
  {
    var rows := RowsFor(books, ids);
    assert |books.Keys| == |books|;
    forall id | id in books
      ensures exists k :: 0 <= k < |rows| && rows[k].id == id
    {
      var k :| 0 <= k < |ids| && ids[k] == id;
      assert rows[k].id == id;
    }
  }

  /** The text of the export file; `None` when there is no book, in which
      case no file is written. */
  function ExportBooks(s: Store): (r: Option<string>)
    ensures r.None? <==> s.books == map[]
  {
    if s.books == map[] then None
    else Some(StockFile.ExportText(ExportRows(s)))
  }

  /** Loading an export file gives back every book of the store, in key
      order, provided every title is clean and every number is a SQLite
      INTEGER. */
  lemma {:induction false} ExportBooksRoundTrip(s: Store)
    requires forall id :: id in s.books ==> StockFile.CleanTitle(s.books[id].title)
    requires SqlIntegers(s)
    requires s.books != map[]
    ensures StockFile.Load(Text.Lines(ExportBooks(s).value)) == ExportRows(s)
  {
    var rows := ExportRows(s);
    assert forall k :: 0 <= k < |rows| ==> StockFile.Writable(rows[k]) by {
      forall k | 0 <= k < |rows|
        ensures StockFile.Writable(rows[k])
      {
        var b := s.books[rows[k].id];
        assert b.title == rows[k].title && b.authorId == rows[k].authorId && b.qty == rows[k].qty;
        Numerals.Int64Printable(rows[k].id);
        Numerals.Int64Printable(b.authorId);
        Numerals.Int64Printable(b.qty);
      }
    }
    StockFile.ExportLoadRoundTrip(rows);
  }
}

=== FILE: id_order.dfy ===
/** Ascending order over sets of ids: the order in which SQLite scans a
    table whose key is an `INTEGER PRIMARY KEY` when a query has no
    `ORDER BY`. */
module IdOrder {

  lemma {:induction false} LeastExists(ids: set<int>)
    requires ids != {}
    ensures exists m :: m in ids && forall y :: y in ids ==> m <= y
    decreases |ids|
  {
    NonEmptyHasMember(ids);
    var x :| x in ids;
    if ids != {x} {
      var rest := ids - {x};
      LeastExists(rest);
      var m :| m in rest && forall y :: y in rest ==> m <= y;
      var least := if x < m then x else m;
      forall y | y in ids
        ensures least <= y
      {
        if y != x {
          assert y in rest;
        }
      }
      assert least in ids;
    } else {
      assert forall y :: y in ids ==> x <= y;
    }
  }

  lemma NonEmptyHasMember(ids: set<int>)
    requires ids != {}
    ensures exists x :: x in ids
  {
    if forall x :: x !in ids {
      assert false;
    }
  }

  /** The smallest id of a non-empty set: the first one a scan meets. */
  function Least(ids: set<int>): (m: int)
    requires ids != {}
    ensures m in ids && forall y :: y in ids ==> m <= y
  {
    LeastExists(ids);
    var m :| m in ids && forall y :: y in ids ==> m <= y;
    m
  }

  /** The ids of a set in the order a table scan returns them. */
  function SortedIds(ids: set<int>): (r: seq<int>)
    ensures |r| == |ids|
    ensures forall k :: 0 <= k < |r| ==> r[k] in ids
    ensures forall x :: x in ids ==> x in r
    ensures forall i, j :: 0 <= i < j < |r| ==> r[i] < r[j]
    decreases |ids|
  {
    if ids == {} then []
    else
      var m := Least(ids);
      var rest := SortedIds(ids - {m});
      PrependLeast(ids, m, rest);
      [m] + rest
  }

  /** Putting the least id in front of a sorted listing of the others
      gives a sorted listing of the whole set. */
  lemma PrependLeast(ids: set<int>, m: int, rest: seq<int>)
    requires m in ids && forall y :: y in ids ==> m <= y
    requires |rest| == |ids - {m}|
    requires forall k :: 0 <= k < |rest| ==> rest[k] in ids - {m}
    requires forall x :: x in ids - {m} ==> x in rest
    requires forall i, j :: 0 <= i < j < |rest| ==> rest[i] < rest[j]
    ensures |[m] + rest| == |ids|
    ensures forall k :: 0 <= k < |[m] + rest| ==> ([m] + rest)[k] in ids
    ensures forall x :: x in ids ==> x in [m] + rest
    ensures forall i, j :: 0 <= i < j < |[m] + rest| ==> ([m] + rest)[i] < ([m] + rest)[j]
  {
    var r := [m] + rest;
    forall x | x in ids
      ensures x in r
    {
      if x != m {
        assert x in ids - {m};
        assert x in rest;
        var k :| 0 <= k < |rest| && rest[k] == x;
        assert r[k + 1] == x;
      }
    }
    assert ids == (ids - {m}) + {m};
  }
}

=== FILE: inventory.dfy ===
/** The bookstore database as two tables keyed by id: `book` and
    `author`. The link `book.authorID -> author.id` is not enforced by
    the store; the operations keep it by hand. */
module Inventory {
  import opened Outcomes
  import IdOrder
  import Numerals

  /** A row of the `book` table (its key is the map key). */
  datatype Book = Book(title: string, authorId: int, qty: int)

  /** A row of the `author` table (its key is the map key). */
  datatype Author = Author(name: string, country: string)

  datatype Store = Store(books: map<int, Book>, authors: map<int, Author>)

  /** The books whose `authorID` is `authorId`. */
  function BooksBy(books: map<int, Book>, authorId: int): (ids: set<int>)
    ensures forall id :: id in ids <==> id in books && books[id].authorId == authorId
  {
    set id | id in books && books[id].authorId == authorId
  }

  /** `SELECT COUNT() FROM book WHERE book.authorID = ?` */
  function CountByAuthor(books: map<int, Book>, authorId: int): nat
  {
    |BooksBy(books, authorId)|
  }

  /** Some book refers to the author id. */
  predicate Referenced(books: map<int, Book>, authorId: int) {
    exists id :: id in books && books[id].authorId == authorId
  }

  /** The count is zero exactly when no book refers to the author id. */
  lemma CountZeroIffUnreferenced(books: map<int, Book>, authorId: int)
    ensures CountByAuthor(books, authorId) == 0 <==> !Referenced(books, authorId)
  {
    var ids := BooksBy(books, authorId);
    if Referenced(books, authorId) {
      var id :| id in books && books[id].authorId == authorId;
      assert id in ids;
    } else if ids != {} {
      IdOrder.NonEmptyHasMember(ids);
      assert false;
    }
  }

  /** Every author row is referenced by at least one book. */
  predicate NoOrphans(s: Store) {
    forall a :: a in s.authors ==> Referenced(s.books, a)
  }

  /** Every book's author row exists. */
  predicate NoDangling(s: Store) {
    forall id :: id in s.books ==> s.books[id].authorId in s.authors
  }

  /** Both directions of the book-author link hold. */
  predicate Consistent(s: Store) {
    NoOrphans(s) && NoDangling(s)
  }

  /** Every id, authorID and qty in the book table is a SQLite INTEGER:
      the operations only ever store values that bind as 64-bit integers. */
  predicate SqlIntegers(s: Store) {
    forall id :: id in s.books ==>
      && Numerals.FitsInt64(id)
      && Numerals.FitsInt64(s.books[id].authorId)
      && Numerals.FitsInt64(s.books[id].qty)
  }

  /** One row of `book INNER JOIN author ON book.authorID = author.id`. */
  datatype Selection = Selection(bookId: int, title: string, authorId: int,
                                 name: string, country: string, qty: int)

  /** The joined row of a book, as `select_book` fetches it: there is none
      when the book is missing or when its author row is. */
  function Select(s: Store, bookId: int): (r: Option<Selection>)
    ensures r.Some? <==> bookId in s.books && s.books[bookId].authorId in s.authors
    ensures r.Some? ==>
      var b := s.books[bookId];
      var a := s.authors[b.authorId];
      && r.value.bookId == bookId && r.value.title == b.title && r.value.qty == b.qty
      && r.value.authorId == b.authorId && r.value.name == a.name && r.value.country == a.country
  {
    if bookId in s.books && s.books[bookId].authorId in s.authors then
      var b := s.books[bookId];
      var a := s.authors[b.authorId];
      Some(Selection(bookId, b.title, b.authorId, a.name, a.country, b.qty))
    else None
  }

  /** In a consistent store every book can be selected. */
  lemma SelectConsistent(s: Store, bookId: int)
    requires NoDangling(s)
    ensures Select(s, bookId).Some? <==> bookId in s.books
  {
  }
}

=== FILE: numerals.dfy ===
/** Decimal integers as the stock file and the id prompts read and write
    them: Python's `int(text)` and `str(n)` for base 10. */
module Numerals {
  import opened Outcomes
  import Text

  predicate IsDigit(c: char) {
    '0' <= c <= '9'
  }

  function DigitValue(c: char): (d: nat)
    requires IsDigit(c)
    ensures d < 10
  {
    (c as int) - ('0' as int)
  }

  function DigitChar(d: nat): (c: char)
    requires d < 10
    ensures IsDigit(c) && DigitValue(c) == d
  {
    ('0' as int + d) as char
  }

  predicate AllDigits(s: string) {
    forall k :: 0 <= k < |s| ==> IsDigit(s[k])
  }

  /** Python's digit grouping for `int()`: at least one digit, and an
      underscore only ever stands between two digits. */
  predicate WellGrouped(s: string) {
    |s| > 0 && forall k :: 0 <= k < |s| ==> GroupedAt(s, k)
  }

  /** Position `k` holds a digit, or an underscore between two digits. */
  predicate GroupedAt(s: string, k: int)
    requires 0 <= k < |s|
  {
    IsDigit(s[k]) || (s[k] == '_' && 0 < k < |s| - 1 && IsDigit(s[k - 1]) && IsDigit(s[k + 1]))
  }

  /** The digits of a grouped numeral, in order. */
  function DropUnderscores(s: string): (r: string)
    ensures forall c :: c in r <==> c in s && c != '_'
  {
    if s == [] then []
    else if s[0] == '_' then DropUnderscores(s[1..])
    else [s[0]] + DropUnderscores(s[1..])
  }

  /** The value of a digit string read most significant digit first. */
  function DigitsValue(ds: string): nat
    requires AllDigits(ds)
  {
    if ds == [] then 0 else DigitsValue(ds[..|ds| - 1]) * 10 + DigitValue(ds[|ds| - 1])
  }

  /** Python's default `int_max_str_digits`: `int()` refuses a decimal
      numeral with more digits, and `str()` an integer that would need more. */
  const MaxStrDigits: nat := 4300

  /** A grouped digit string `int()` reads: its digits, leading zeros
      included and underscores not, are within the limit. */
  predicate ReadableDigits(s: string) {
    WellGrouped(s) && |DropUnderscores(s)| <= MaxStrDigits
  }

  function ParseNat(s: string): (r: Option<nat>)
    ensures r.Some? <==> ReadableDigits(s)
  {
    if ReadableDigits(s) then
      var ds := DropUnderscores(s);
      assert AllDigits(ds) by {
        forall k | 0 <= k < |ds| ensures IsDigit(ds[k]) {
          assert ds[k] in ds;
          var j :| 0 <= j < |s| && s[j] == ds[k];
          assert GroupedAt(s, j);
        }
      }
      Some(DigitsValue(ds))
    else None
  }

  /** The whitespace `int()` skips around a numeral. CPython first turns
      every non-ASCII whitespace character into a space and then skips
      only the ASCII space and `\t` to `\r`; so the separators U+001C to
      U+001F, which `str.isspace()` counts, are not skipped. */
  predicate IntSpace(c: char) {
    Text.IsSpace(c) && !('\U{1C}' <= c <= '\U{1F}')
  }

  /** Drops leading `IntSpace`: the result is a suffix of `s` and
      everything dropped was `IntSpace`. */
  function SkipSpaceLeft(s: string): (r: string)
    ensures |r| <= |s| && r == s[|s| - |r|..]
    ensures forall k :: 0 <= k < |s| - |r| ==> IntSpace(s[k])
    ensures r != [] ==> !IntSpace(r[0])
  {
    if |s| > 0 && IntSpace(s[0]) then SkipSpaceLeft(s[1..]) else s
  }

  /** Drops trailing `IntSpace`: the result is a prefix of `s` and
      everything dropped was `IntSpace`. */
  function SkipSpaceRight(s: string): (r: string)
    ensures |r| <= |s| && r == s[..|r|]
    ensures forall k :: |r| <= k < |s| ==> IntSpace(s[k])
    ensures r != [] ==> !IntSpace(r[|r| - 1])
  {
    if |s| > 0 && IntSpace(s[|s| - 1]) then SkipSpaceRight(s[..|s| - 1]) else s
  }

  /** The text `int()` reads once the surrounding whitespace is skipped. */
  function SkipSpace(s: string): (r: string)
    ensures |r| <= |s|
    ensures r == [] || (!IntSpace(r[0]) && !IntSpace(r[|r| - 1]))
  {
    SkipSpaceRight(SkipSpaceLeft(s))
  }

  /** Text that `str.strip()` has already trimmed has nothing left for
      `int()` to skip. */
  lemma SkipSpaceOfStripped(s: string)
    requires s == [] || (!Text.IsSpace(s[0]) && !Text.IsSpace(s[|s| - 1]))
    ensures SkipSpace(s) == s
  {
  }

  /** Python's `int(text)` on base-10 text: optional surrounding
      whitespace, an optional sign, then a grouped digit string of at
      most `MaxStrDigits` digits; `None` where Python raises `ValueError`. */
  function ParseInt(text: string): (r: Option<int>)
    ensures r.Some? <==>
      var t := SkipSpace(text);
      if |t| > 0 && (t[0] == '+' || t[0] == '-') then ReadableDigits(t[1..]) else ReadableDigits(t)
  {
    var t := SkipSpace(text);
    if |t| > 0 && (t[0] == '+' || t[0] == '-') then
      match ParseNat(t[1..])
      case Some(n) =>
        var v: int := if t[0] == '-' then 0 - n else n;
        Some(v)
      case None => None
    else
      match ParseNat(t)
      case Some(n) => Some(n)
      case None => None
  }

  /** Python's `str(n)` for a non-negative integer: no sign, no leading zero. */
  function NatToString(n: nat): (r: string)
    ensures |r| > 0 && AllDigits(r)
    ensures r[0] == '0' ==> n == 0
  {
    if n < 10 then [DigitChar(n)] else NatToString(n / 10) + [DigitChar(n % 10)]
  }

  /** Python's `str(n)` (and the `{n}` of an f-string) for an integer;
      Python refuses it when `Printable(n)` fails. */
  function IntToString(n: int): (r: string)
    ensures |r| > 0
  {
    if n < 0 then "-" + NatToString(-n) else NatToString(n)
  }

  function Abs(n: int): nat {
    if n < 0 then -n else n
  }

  /** `str(n)` succeeds: the numeral has at most `MaxStrDigits` digits. */
  predicate Printable(n: int) {
    |NatToString(Abs(n))| <= MaxStrDigits
  }

  /** The range of a SQLite INTEGER. Python's `sqlite3` raises
      `OverflowError` when asked to bind an `int` outside it. */
  predicate FitsInt64(n: int) {
    -0x8000_0000_0000_0000 <= n <= 0x7FFF_FFFF_FFFF_FFFF
  }

  function Pow10(k: nat): (p: nat)
    ensures p >= 1
  {
    if k == 0 then 1 else 10 * Pow10(k - 1)
  }

  /** A number below `10^k` has at most `k` digits. */
  lemma {:induction false} NatToStringLength(n: nat, k: nat)
    requires 1 <= k && n < Pow10(k)
    ensures |NatToString(n)| <= k
    decreases k
  {
    if n >= 10 {
      assert n / 10 < Pow10(k - 1);
      NatToStringLength(n / 10, k - 1);
    }
  }

  /** Every 64-bit integer has at most 19 digits, so `str()` never
      refuses a value read from the database. */
  lemma Int64Printable(n: int)
    requires FitsInt64(n)
    ensures Printable(n)
    ensures |NatToString(Abs(n))| <= 19
  {
    assert Pow10(4) == 10_000;
    assert Pow10(8) == 10_000 * Pow10(4);
    assert Pow10(12) == 10_000 * Pow10(8);
    assert Pow10(16) == 10_000 * Pow10(12);
    assert Pow10(19) == 1000 * Pow10(16);
    NatToStringLength(Abs(n), 19);
  }

  lemma {:induction false} DigitsValueOfNatToString(n: nat)
    ensures DigitsValue(NatToString(n)) == n
    decreases n
  {
    if n >= 10 {
      DigitsValueOfNatToString(n / 10);
      var s := NatToString(n);
      assert s[..|s| - 1] == NatToString(n / 10);
    }
  }

  lemma {:induction false} DropUnderscoresOfDigits(s: string)
    requires AllDigits(s)
    ensures DropUnderscores(s) == s
    decreases |s|
  {
    if s != [] {
      DropUnderscoresOfDigits(s[1..]);
      assert [s[0]] + s[1..] == s;
    }
  }

  lemma ParseNatOfNatToString(n: nat)
    ensures WellGrouped(NatToString(n))
    ensures ParseNat(NatToString(n)) == if |NatToString(n)| <= MaxStrDigits then Some(n) else None
  {
    var s := NatToString(n);
    DropUnderscoresOfDigits(s);
    DigitsValueOfNatToString(n);
  }

  /** `int(str(n)) == n` for every integer `str()` prints; the numeral of
      any other integer is refused by `int()`. */
  lemma {:induction false} ParseIntOfIntToString(n: int)
    ensures ParseInt(IntToString(n)) == if Printable(n) then Some(n) else None
  {
    var s := IntToString(n);
    var m := Abs(n);
    var digits := NatToString(m);
    assert IsDigit(digits[0]) && IsDigit(digits[|digits| - 1]);
    SkipSpaceOfStripped(s);
    ParseNatOfNatToString(m);
    if n < 0 {
      assert s[1..] == digits;
    }
  }

  /** A numeral that starts with one of the separators U+001C to U+001F
      is refused, although `str.isspace()` counts them as whitespace. */
  lemma SeparatorRefused(text: string)
    requires |text| > 0 && '\U{1C}' <= text[0] <= '\U{1F}'
    ensures ParseInt(text) == None
  {
    var t := SkipSpace(text);
    assert SkipSpaceLeft(text) == text;
    assert |t| > 0 && t[0] == text[0];
    assert !GroupedAt(t, 0);
  }

  /** The range check the id prompts apply: a four-digit number. */
  predicate ValidId(id: int) {
    1000 <= id <= 9999
  }

  /** What the book-id, author-id and search-id prompts accept from one
      line of input: `None` means the prompt is repeated. */
  function AcceptId(text: string): (r: Option<int>)
    ensures r.Some? <==> ParseInt(text).Some? && 1000 <= ParseInt(text).value <= 9999
    ensures r.Some? ==> r == ParseInt(text)
  {
    match ParseInt(text)
    case Some(n) => if ValidId(n) then Some(n) else None
    case None => None
  }

  /** Typing the decimal numeral of `n` is accepted exactly when `n` is
      a four-digit number. */
  lemma AcceptIdOfNumeral(n: int)
    ensures AcceptId(IntToString(n)) == if 1000 <= n <= 9999 then Some(n) else None
  {
    ParseIntOfIntToString(n);
    if 1000 <= n <= 9999 {
      Int64Printable(n);
    }
  }

  /** The boundary cases: the numerals 999 and 10000 are refused, 1000
      and 9999 are accepted. */
  lemma IdBoundaries()
    ensures AcceptId(IntToString(999)) == None
    ensures AcceptId(IntToString(1000)) == Some(1000)
    ensures AcceptId(IntToString(9999)) == Some(9999)
    ensures AcceptId(IntToString(10000)) == None
  {
    AcceptIdOfNumeral(999);
    AcceptIdOfNumeral(1000);
    AcceptIdOfNumeral(9999);
    AcceptIdOfNumeral(10000);
  }
}

=== FILE: outcomes.dfy ===
/** Failure-carrying result types shared by the whole model. */
module Outcomes {

  /** A value that may be absent: a SQL `fetchone()` that found no row,
      or a Python `int()` that raised `ValueError`. */
  datatype Option<+T> = None | Some(value: T)

  /** Either the new state of an operation or the reason it stopped. */
  datatype Result<+T, +E> = Ok(value: T) | Err(error: E)
}

=== FILE: sessions.dfy ===
/** A sequence of menu operations applied in order. An operation that
    fails leaves the store as it was and the operator carries on, except
    for the failures Python raises past the main menu, which end the
    program: an entry whose author row is missing, and a quantity or a
    selected book id that does not bind as a SQLite INTEGER. */
module Sessions {
  import opened Outcomes
  import opened Inventory
  import Numerals
  import Enter
  import Delete
  import Update

  /** One menu operation with the answers its prompts receive. */
  datatype Op =
    | EnterOp(title: string, qty: int, bookId: int, authorId: int, name: string, country: string)
    | UpdateOp(bookId: int, req: Update.UpdateRequest)
    | DeleteOp(bookId: int, confirmed: bool)

  /** The store after one operation. */
  function Step(s: Store, op: Op): (r: Store)
    ensures op.EnterOp? ==>
      (r == s <==> Enter.EnterBook(s, op.title, op.qty, op.bookId, op.authorId, op.name, op.country).Err?)
    ensures op.EnterOp? && r != s ==> r.books.Keys == s.books.Keys + {op.bookId} && op.bookId !in s.books
    ensures op.UpdateOp? ==> r.books.Keys == s.books.Keys && r.authors.Keys == s.authors.Keys
    ensures op.DeleteOp? ==>
      r.books.Keys == s.books.Keys || (op.confirmed && r.books.Keys == s.books.Keys - {op.bookId})
    ensures op.DeleteOp? && op.confirmed && Numerals.FitsInt64(op.bookId) && Select(s, op.bookId).Some? ==>
      r.books.Keys == s.books.Keys - {op.bookId}
  {
    match op
    case EnterOp(title, qty, bookId, authorId, name, country) =>
      Outcome(Enter.EnterBook(s, title, qty, bookId, authorId, name, country), s)
    case UpdateOp(bookId, req) =>
      Outcome(Update.UpdateBook(s, bookId, req), s)
    case DeleteOp(bookId, confirmed) =>
      Outcome(Delete.DeleteBook(s, bookId, confirmed), s)
  }

  /** The store an operation leaves: its result, or the old store after
      an error. */
  function Outcome<E>(r: Result<Store, E>, s: Store): Store {
    if r.Ok? then r.value else s
  }

  /** The operation stops the program: `enter_book` indexes the missing
      author data, or binding a quantity or a selected book id raises
      `OverflowError`, which no caller catches; nothing has been written. */
  predicate Crashes(s: Store, op: Op) {
    || (op.EnterOp? &&
        var r := Enter.EnterBook(s, op.title, op.qty, op.bookId, op.authorId, op.name, op.country);
        r == Err(Enter.AuthorRowMissing) || r == Err(Enter.QtyOutOfRange))
    || (op.UpdateOp? &&
        var r := Update.UpdateBook(s, op.bookId, op.req);
        r == Err(Update.IdOutOfRange) || r == Err(Update.QtyOutOfRange))
    || (op.DeleteOp? && Delete.DeleteBook(s, op.bookId, op.confirmed) == Err(Delete.IdOutOfRange))
  }

  /** The operation carries a quantity or a selected book id no SQLite
      INTEGER can hold. */
  predicate Overflows(op: Op) {
    || (op.EnterOp? && !Numerals.FitsInt64(op.qty))
    || (op.UpdateOp? && op.req.NewQty? && !Numerals.FitsInt64(op.req.qty))
    || ((op.UpdateOp? || op.DeleteOp?) && !Numerals.FitsInt64(op.bookId))
  }

  /** Some operation of the session ends the program. */
  predicate Halts(s: Store, ops: seq<Op>)
    decreases |ops|
  {
    ops != [] && (Crashes(s, ops[0]) || Halts(Step(s, ops[0]), ops[1..]))
  }

  /** The store after a whole session; the operations after a crash never run. */
  function Run(s: Store, ops: seq<Op>): (r: Store)
    ensures ops == [] ==> r == s
    ensures ops != [] && Crashes(s, ops[0]) ==> r == s
    decreases |ops|
  {
    if ops == [] || Crashes(s, ops[0]) then s else Run(Step(s, ops[0]), ops[1..])
  }

  /** From a store where every book's author row is on file, an
      operation crashes exactly when it reaches the binding of a number
      outside the 64-bit range: the id selecting a book to update or
      delete, or the quantity of a new book with valid, unused ids or of
      a quantity update of an existing book. */
  lemma OnlyOverflowCrashes(s: Store, op: Op)
    requires NoDangling(s)
    ensures Crashes(s, op) <==>
      || ((op.UpdateOp? || op.DeleteOp?) && !Numerals.FitsInt64(op.bookId))
      || (op.EnterOp? && !Numerals.FitsInt64(op.qty) && Numerals.ValidId(op.bookId)
          && Numerals.ValidId(op.authorId) && op.bookId !in s.books)
      || (op.UpdateOp? && op.req.NewQty? && !Numerals.FitsInt64(op.req.qty)
          && Numerals.FitsInt64(op.bookId) && op.bookId in s.books)
  {
    if op.EnterOp? {
      Enter.EnterFindsAuthorRow(s, op.title, op.qty, op.bookId, op.authorId, op.name, op.country);
    } else if op.UpdateOp? {
      SelectConsistent(s, op.bookId);
    }
  }

  /** From a store where every book's author row is on file, a session
      whose quantities and selected book ids all fit 64 bits runs to its
      end. */
  lemma {:induction false} NoHaltWithoutOverflow(s: Store, ops: seq<Op>)
    requires NoDangling(s)
    requires forall k :: 0 <= k < |ops| ==> !Overflows(ops[k])
    ensures !Halts(s, ops)
    decreases |ops|
  {
    if ops != [] {
      OnlyOverflowCrashes(s, ops[0]);
      StepKeepsNoDangling(s, ops[0]);
      assert forall k :: 0 <= k < |ops[1..]| ==> ops[1..][k] == ops[k + 1];
      NoHaltWithoutOverflow(Step(s, ops[0]), ops[1..]);
    }
  }

  /** Selecting a book by an id outside the 64-bit range, to update or
      to delete it, ends the program with nothing written, whatever the
      operator meant to do next. */
  lemma OutOfRangeSelectionHalts(s: Store, op: Op, rest: seq<Op>)
    requires (op.UpdateOp? || op.DeleteOp?) && !Numerals.FitsInt64(op.bookId)
    ensures Halts(s, [op] + rest)
    ensures Run(s, [op] + rest) == s
  {
    assert ([op] + rest)[0] == op;
  }

  /** An operation that cannot repoint a book to another author. */
  predicate Tame(op: Op) {
    !(op.UpdateOp? && op.req.AuthorEdits?)
  }

  /** Every operation leaves each book's author row on file. */
  lemma StepKeepsNoDangling(s: Store, op: Op)
    requires NoDangling(s)
    ensures NoDangling(Step(s, op))
  {
    match op
    case EnterOp(title, qty, bookId, authorId, name, country) =>
      if Enter.EnterBook(s, title, qty, bookId, authorId, name, country).Ok? {
        Enter.EnterKeepsNoDangling(s, title, qty, bookId, authorId, name, country);
      }
    case UpdateOp(bookId, req) =>
      if Update.UpdateBook(s, bookId, req).Ok? {
        Update.UpdateBookKeepsNoDangling(s, bookId, req);
      }
    case DeleteOp(bookId, confirmed) =>
      if Delete.DeleteBook(s, bookId, confirmed).Ok? {
        Delete.DeleteKeepsNoDangling(s, bookId, confirmed);
      }
  }

  /** Every operation but an author edit keeps the store consistent. */
  lemma StepKeepsConsistent(s: Store, op: Op)
    requires Consistent(s) && Tame(op)
    ensures Consistent(Step(s, op))
  {
    match op
    case EnterOp(title, qty, bookId, authorId, name, country) =>
      var r := Enter.EnterBook(s, title, qty, bookId, authorId, name, country);
      assert Step(s, op) == Outcome(r, s);
      if r.Ok? {
        Enter.EnterPreservesConsistent(s, title, qty, bookId, authorId, name, country);
      }
    case UpdateOp(bookId, req) =>
      var r := Update.UpdateBook(s, bookId, req);
      assert Step(s, op) == Outcome(r, s);
      if r.Ok? {
        Update.FieldUpdateKeepsConsistent(s, bookId, req);
      }
    case DeleteOp(bookId, confirmed) =>
      var r := Delete.DeleteBook(s, bookId, confirmed);
      assert Step(s, op) == Outcome(r, s);
      if r.Ok? {
        Delete.DeletePreservesConsistent(s, bookId, confirmed);
      }
  }

  /** However long the session, every book's author row stays on file. */
  lemma {:induction false} RunKeepsNoDangling(s: Store, ops: seq<Op>)
    requires NoDangling(s)
    ensures NoDangling(Run(s, ops))
    decreases |ops|
  {
    if ops != [] {
      StepKeepsNoDangling(s, ops[0]);
      RunKeepsNoDangling(Step(s, ops[0]), ops[1..]);
    }
  }

  /** A session without author edits keeps the store consistent. */
  lemma {:induction false} RunKeepsConsistent(s: Store, ops: seq<Op>)
    requires Consistent(s)
    requires forall k :: 0 <= k < |ops| ==> Tame(ops[k])
    ensures Consistent(Run(s, ops))
    decreases |ops|
  {
    if ops != [] {
      StepKeepsConsistent(s, ops[0]);
      RunKeepsConsistent(Step(s, ops[0]), ops[1..]);
    }
  }

  /** A session split in two runs its halves one after the other, unless
      the first half ends the program, when the second never runs. */
  lemma {:induction false} RunAppend(s: Store, a: seq<Op>, b: seq<Op>)
    ensures Run(s, a + b) == if Halts(s, a) then Run(s, a) else Run(Run(s, a), b)
    decreases |a|
  {
    if a != [] {
      assert (a + b)[0] == a[0];
      assert (a + b)[1..] == a[1..] + b;
      if !Crashes(s, a[0]) {
        RunAppend(Step(s, a[0]), a[1..], b);
      }
    } else {
      assert a + b == b;
    }
  }

  /** Every operation keeps every number in the book table a SQLite INTEGER. */
  lemma StepKeepsSqlIntegers(s: Store, op: Op)
    requires SqlIntegers(s)
    ensures SqlIntegers(Step(s, op))
  {
    match op
    case EnterOp(title, qty, bookId, authorId, name, country) =>
      if Enter.EnterBook(s, title, qty, bookId, authorId, name, country).Ok? {
        Enter.EnterKeepsSqlIntegers(s, title, qty, bookId, authorId, name, country);
      }
    case UpdateOp(bookId, req) =>
      if Update.UpdateBook(s, bookId, req).Ok? {
        Update.UpdateBookKeepsSqlIntegers(s, bookId, req);
      }
    case DeleteOp(bookId, confirmed) =>
  }

  /** However long the session, the book table holds only SQLite INTEGERs,
      so an export of it always reads back. */
  lemma {:induction false} RunKeepsSqlIntegers(s: Store, ops: seq<Op>)
    requires SqlIntegers(s)
    ensures SqlIntegers(Run(s, ops))
    decreases |ops|
  {
    if ops != [] {
      StepKeepsSqlIntegers(s, ops[0]);
      RunKeepsSqlIntegers(Step(s, ops[0]), ops[1..]);
    }
  }
}

=== FILE: stock_file.dfy ===
/** The plain-text stock format: one book per line as
    `id,title,authorID,qty`, with blank lines and `#` comment lines
    ignored. `Load` is the line parser of `load_stock_from_file`;
    `ExportText` is the writer of `export_books_to_file`. */
module StockFile {
  import opened Outcomes
  import Text
  import Numerals

  /** One book as the stock list and the export carry it. */
  datatype StockRow = StockRow(id: int, title: string, authorId: int, qty: int)

  /** What the loader makes of one line. */
  datatype LineKind =
    | Blank              // nothing but whitespace: skipped silently
    | Comment            // starts with `#` once stripped: skipped silently
    | WrongFieldCount    // not exactly four comma-separated fields: "incorrect format"
    | InvalidData        // id, authorID or qty is not an integer: "invalid data"
    | Row(row: StockRow)

  /** Parses one line of the stock file. */
  function ClassifyLine(line: string): (k: LineKind)
    ensures k == Blank <==> Text.Strip(line) == ""
    ensures k == Comment <==> Text.Strip(line) != "" && Text.Strip(line)[0] == '#'
    ensures k.Row? ==> ',' !in k.row.title && Text.Strip(k.row.title) == k.row.title
  {
    ClassifyStripped(Text.Strip(line))
  }

  function ClassifyStripped(t: string): (k: LineKind)
    ensures k == Blank <==> t == ""
    ensures k == Comment <==> t != "" && t[0] == '#'
    ensures k.Row? ==> ',' !in k.row.title && Text.Strip(k.row.title) == k.row.title
  {
    if t == "" then Blank
    else if t[0] == '#' then Comment
    else
      var parts := Text.Split(t, ',');
      if |parts| != 4 then WrongFieldCount else ParseFields(parts[0], parts[1], parts[2], parts[3])
  }

  /** Once stripped, a line that is neither blank nor a comment is a row
      exactly when it has four comma-separated fields whose id, authorID
      and qty parse as integers; the row holds those integers and the
      stripped title. Otherwise it is skipped as malformed or invalid. */
  lemma ClassifyOutcomes(line: string)
    ensures var t := Text.Strip(line); var p := Text.Split(t, ',');
      && (ClassifyLine(line) == WrongFieldCount <==> t != "" && t[0] != '#' && |p| != 4)
      && (ClassifyLine(line) == InvalidData <==>
            t != "" && t[0] != '#' && |p| == 4 && !FieldsParse(p[0], p[2], p[3]))
      && (ClassifyLine(line).Row? <==>
            t != "" && t[0] != '#' && |p| == 4 && FieldsParse(p[0], p[2], p[3]))
      && (ClassifyLine(line).Row? ==> |p| == 4 && RowOfFields(p[0], p[1], p[2], p[3], ClassifyLine(line).row))
  {
    var t := Text.Strip(line);
    var p := Text.Split(t, ',');
    if t != "" && t[0] != '#' && |p| == 4 {
      ParseFieldsOutcomes(p[0], p[1], p[2], p[3]);
    }
  }

  /** The fields make a row exactly when the three integer fields parse,
      and the row holds their values and the stripped title. */
  lemma ParseFieldsOutcomes(id: string, title: string, authorId: string, qty: string)
    requires ',' !in title
    ensures ParseFields(id, title, authorId, qty).Row? <==> FieldsParse(id, authorId, qty)
    ensures ParseFields(id, title, authorId, qty).Row? ==>
      RowOfFields(id, title, authorId, qty, ParseFields(id, title, authorId, qty).row)
  {
  }

  /** Converts the four fields of a line: each integer field is stripped
      and read with `int()`, the title is stripped. */
  function ParseFields(id: string, title: string, authorId: string, qty: string): (k: LineKind)
    requires ',' !in title
    ensures k.Row? || k == InvalidData
    ensures k.Row? ==> ',' !in k.row.title && Text.Strip(k.row.title) == k.row.title
  {
    var t := Text.Strip(title);
    Text.StripIdempotent(title);
    assert forall c :: c in t ==> c in title;
    match (Numerals.ParseInt(Text.Strip(id)),
           Numerals.ParseInt(Text.Strip(authorId)),
           Numerals.ParseInt(Text.Strip(qty)))
    case (Some(i), Some(a), Some(q)) => Row(StockRow(i, t, a, q))
    case _ => InvalidData
  }

  /** The id, authorID and qty fields are integers once stripped. */
  predicate FieldsParse(id: string, authorId: string, qty: string) {
    && Numerals.ParseInt(Text.Strip(id)).Some?
    && Numerals.ParseInt(Text.Strip(authorId)).Some?
    && Numerals.ParseInt(Text.Strip(qty)).Some?
  }

  /** `row` holds the integers of the id, authorID and qty fields and the
      stripped title field. */
  predicate RowOfFields(id: string, title: string, authorId: string, qty: string, row: StockRow) {
    && Numerals.ParseInt(Text.Strip(id)) == Some(row.id)
    && row.title == Text.Strip(title)
    && Numerals.ParseInt(Text.Strip(authorId)) == Some(row.authorId)
    && Numerals.ParseInt(Text.Strip(qty)) == Some(row.qty)
  }

  /** The rows a line contributes to the stock list. */
  function RowsOf(line: string): seq<StockRow>
  {
    match ClassifyLine(line)
    case Row(r) => [r]
    case _ => []
  }

  /** A line contributes its row, if it has one, and nothing otherwise. */
  lemma RowsOfLine(line: string)
    ensures |RowsOf(line)| <= 1
    ensures RowsOf(line) != [] <==> ClassifyLine(line).Row?
    ensures RowsOf(line) != [] ==> RowsOf(line)[0] == ClassifyLine(line).row
  {
  }

  /** The stock list the loader builds from the lines of a file: the
      rows of each line, in file order. */
  function Load(lines: seq<string>): seq<StockRow>
  {
    Gather(RowsOf, lines)
  }

  /** The outputs of `f` on each element, concatenated in order. */
  function Gather<T, U>(f: T -> seq<U>, xs: seq<T>): seq<U>
  {
    if xs == [] then [] else Gather(f, xs[..|xs| - 1]) + f(xs[|xs| - 1])
  }

  lemma {:induction false} GatherAppend<T, U>(f: T -> seq<U>, a: seq<T>, b: seq<T>)
    ensures Gather(f, a + b) == Gather(f, a) + Gather(f, b)
    decreases |b|
  {
    if b == [] {
      assert a + b == a;
    } else {
      var b' := b[..|b| - 1];
      assert (a + b)[..|a + b| - 1] == a + b';
      assert (a + b)[|a + b| - 1] == b[|b| - 1];
      GatherAppend(f, a, b');
    }
  }

  /** Loading keeps file order: the rows of a file are the rows of its
      first part followed by the rows of the rest. */
  lemma {:induction false} LoadAppend(a: seq<string>, b: seq<string>)
    ensures Load(a + b) == Load(a) + Load(b)
  {
    GatherAppend(RowsOf, a, b);
  }

  /** The loader returns at most one row per line. */
  lemma {:induction false} LoadLength(lines: seq<string>)
    ensures |Load(lines)| <= |lines|
    decreases |lines|
  {
    if lines != [] {
      var init := lines[..|lines| - 1];
      LoadLength(init);
      RowsOfLine(lines[|lines| - 1]);
      GatherLast(RowsOf, lines);
    }
  }

  /** A single line contributes exactly its own row, if it has one. */
  lemma {:induction false} LoadOne(line: string)
    ensures Load([line]) == RowsOf(line)
  {
    GatherOne(RowsOf, line);
  }

  lemma GatherOne<T, U>(f: T -> seq<U>, x: T)
    ensures Gather(f, [x]) == f(x)
  {
    assert [x][..0] == [];
  }

  lemma GatherLast<T, U>(f: T -> seq<U>, xs: seq<T>)
    requires xs != []
    ensures Gather(f, xs) == Gather(f, xs[..|xs| - 1]) + f(xs[|xs| - 1])
  {
  }

  /** The rows of a file are those of its first line followed by those of the rest. */
  lemma {:induction false} LoadCons(line: string, rest: seq<string>)
    ensures Load([line] + rest) == Load([line]) + Load(rest)
  {
    LoadAppend([line], rest);
  }

  lemma FirstAndRest<T>(s: seq<T>)
    requires s != []
    ensures [s[0]] + s[1..] == s
  {
  }

  const Header1: string := "# Book data exported from ebookstore.db"
  const Header2: string := "# Format: id,title,authorID,qty"

  /** The export line of one book, without its line terminator. */
  function FormatRow(r: StockRow): string
  {
    Text.Join([Numerals.IntToString(r.id), r.title,
               Numerals.IntToString(r.authorId), Numerals.IntToString(r.qty)], ',')
  }

  function FormatRows(rows: seq<StockRow>): (lines: seq<string>)
    ensures |lines| == |rows|
  {
    if rows == [] then [] else [FormatRow(rows[0])] + FormatRows(rows[1..])
  }

  /** The lines of an export file: two comment headers, then one line per book. */
  function ExportLines(rows: seq<StockRow>): (lines: seq<string>)
    ensures |lines| == |rows| + 2
  {
    [Header1, Header2] + FormatRows(rows)
  }

  /** The text written to an export file. */
  function ExportText(rows: seq<StockRow>): string
  {
    Text.WriteLines(ExportLines(rows))
  }

  /** A title survives the trip through the file unchanged: no comma, no
      line break, no whitespace at either end. */
  predicate CleanTitle(t: string) {
    && ',' !in t && '\n' !in t && '\r' !in t
    && (t == [] || (!Text.IsSpace(t[0]) && !Text.IsSpace(t[|t| - 1])))
  }

  /** A row the export writes and the loader reads back as itself: a
      clean title and integers `str()` prints. */
  predicate Writable(r: StockRow) {
    && CleanTitle(r.title)
    && Numerals.Printable(r.id) && Numerals.Printable(r.authorId) && Numerals.Printable(r.qty)
  }

  /** A title is clean exactly when it has no comma or line break and
      `strip()` leaves it as it is. */
  lemma CleanTitleIffStripped(t: string)
    ensures CleanTitle(t) <==> ',' !in t && '\n' !in t && '\r' !in t && Text.Strip(t) == t
  {
    if t != [] && (!Text.IsSpace(t[0]) && !Text.IsSpace(t[|t| - 1])) {
      Text.StripKeeps(t);
    }
  }

  lemma NumeralHasNoSpecials(n: int)
    ensures ',' !in Numerals.IntToString(n) && '\n' !in Numerals.IntToString(n)
    ensures '\r' !in Numerals.IntToString(n) && '#' !in Numerals.IntToString(n)
    ensures !Text.IsSpace(Numerals.IntToString(n)[0])
    ensures !Text.IsSpace(Numerals.IntToString(n)[|Numerals.IntToString(n)| - 1])
  {
    var s := Numerals.IntToString(n);
    var m: nat := if n < 0 then -n else n;
    var digits := Numerals.NatToString(m);
    assert forall c :: c in digits ==> Numerals.IsDigit(c);
    if n < 0 {
      assert s == "-" + digits;
      assert forall c :: c in s ==> c == '-' || c in digits;
    }
  }

  /** A book's export line parses back to the same row. */
  lemma {:induction false} ClassifyFormatRow(r: StockRow)
    requires Writable(r)
    ensures ClassifyLine(FormatRow(r)) == Row(r)
  {
    var a := Numerals.IntToString(r.id);
    var b := Numerals.IntToString(r.authorId);
    var c := Numerals.IntToString(r.qty);
    FormatRowShape(r);
    ClassifyOfFields(FormatRow(r), a, r.title, b, c);
    ParseFieldsOfNumerals(r);
  }

  /** An export line needs no stripping, is no comment, and splits back
      into its four fields. */
  lemma {:induction false} FormatRowShape(r: StockRow)
    requires CleanTitle(r.title)
    ensures var line := FormatRow(r);
      && line != "" && Text.Strip(line) == line && line[0] != '#'
      && Text.Split(line, ',') == [Numerals.IntToString(r.id), r.title,
                                   Numerals.IntToString(r.authorId), Numerals.IntToString(r.qty)]
  {
    FormatRowEnds(r);
    Text.StripKeeps(FormatRow(r));
    FormatRowSplits(r);
  }

  lemma FormatRowEnds(r: StockRow)
    ensures var line := FormatRow(r);
      && line != "" && line[0] != '#' && !Text.IsSpace(line[0]) && !Text.IsSpace(line[|line| - 1])
  {
    var a := Numerals.IntToString(r.id);
    var b := Numerals.IntToString(r.authorId);
    var c := Numerals.IntToString(r.qty);
    var line := FormatRow(r);
    NumeralHasNoSpecials(r.id);
    NumeralHasNoSpecials(r.qty);
    Text.JoinFour(a, r.title, b, c, ',');
    assert line[0] == a[0] && line[|line| - 1] == c[|c| - 1];
    assert a[0] in a;
  }

  lemma FormatRowSplits(r: StockRow)
    requires ',' !in r.title
    ensures Text.Split(FormatRow(r), ',') == [Numerals.IntToString(r.id), r.title,
                                            Numerals.IntToString(r.authorId), Numerals.IntToString(r.qty)]
  {
    NumeralHasNoSpecials(r.id);
    NumeralHasNoSpecials(r.authorId);
    NumeralHasNoSpecials(r.qty);
    Text.SplitJoin([Numerals.IntToString(r.id), r.title,
                    Numerals.IntToString(r.authorId), Numerals.IntToString(r.qty)], ',');
  }

  lemma ClassifyOfFields(line: string, a: string, t: string, b: string, c: string)
    requires line != "" && Text.Strip(line) == line && line[0] != '#'
    requires Text.Split(line, ',') == [a, t, b, c]
    ensures ',' !in t
    ensures ClassifyLine(line) == ParseFields(a, t, b, c)
  {
    assert t == Text.Split(line, ',')[1];
  }

  lemma {:induction false} ParseFieldsOfNumerals(r: StockRow)
    requires Writable(r)
    ensures ParseFields(Numerals.IntToString(r.id), r.title,
                        Numerals.IntToString(r.authorId), Numerals.IntToString(r.qty)) == Row(r)
  {
    Text.StripKeeps(r.title);
    NumeralField(r.id);
    NumeralField(r.authorId);
    NumeralField(r.qty);
    var fields := (Numerals.ParseInt(Text.Strip(Numerals.IntToString(r.id))),
                   Numerals.ParseInt(Text.Strip(Numerals.IntToString(r.authorId))),
                   Numerals.ParseInt(Text.Strip(Numerals.IntToString(r.qty))));
    assert fields == (Some(r.id), Some(r.authorId), Some(r.qty));
  }

  /** A printed integer field reads back as itself once stripped. */
  lemma NumeralField(n: int)
    requires Numerals.Printable(n)
    ensures Numerals.ParseInt(Text.Strip(Numerals.IntToString(n))) == Some(n)
  {
    NumeralHasNoSpecials(n);
    Text.StripKeeps(Numerals.IntToString(n));
    Numerals.ParseIntOfIntToString(n);
  }

  lemma {:induction false} LoadFormatRows(rows: seq<StockRow>)
    requires forall k :: 0 <= k < |rows| ==> Writable(rows[k])
    ensures Load(FormatRows(rows)) == rows
    decreases |rows|
  {
    if rows != [] {
      var line := FormatRow(rows[0]);
      var rest := FormatRows(rows[1..]);
      assert Load(rest) == rows[1..] by {
        LoadFormatRows(rows[1..]);
      }
      assert Load([line]) == [rows[0]] by {
        LoadOne(line);
        ClassifyFormatRow(rows[0]);
      }
      assert FormatRows(rows) == [line] + rest;
      LoadCons(line, rest);
      FirstAndRest(rows);
    }
  }

  /** No export line contains a line break, so each is read back as one line. */
  lemma ExportLinesAreSingleLines(rows: seq<StockRow>)
    requires forall j :: 0 <= j < |rows| ==> '\n' !in rows[j].title && '\r' !in rows[j].title
    ensures forall k :: 0 <= k < |ExportLines(rows)| ==>
      '\n' !in ExportLines(rows)[k] && '\r' !in ExportLines(rows)[k]
  {
    FormatRowsAreSingleLines(rows);
    HeadersAreSingleLines();
    var lines := ExportLines(rows);
    forall k | 0 <= k < |lines|
      ensures '\n' !in lines[k] && '\r' !in lines[k]
    {
      if k >= 2 {
        assert lines[k] == FormatRows(rows)[k - 2];
      }
    }
  }

  lemma HeadersAreSingleLines()
    ensures '\n' !in Header1 && '\r' !in Header1
    ensures '\n' !in Header2 && '\r' !in Header2
  {
    Header1Chars();
    Header2Chars();
    NoBreakChars(Header1);
    NoBreakChars(Header2);
  }

  lemma Header1Chars()
    ensures forall k :: 0 <= k < |Header1| ==> Header1[k] != '\n' && Header1[k] != '\r'
  {
  }

  lemma Header2Chars()
    ensures forall k :: 0 <= k < |Header2| ==> Header2[k] != '\n' && Header2[k] != '\r'
  {
  }

  lemma NoBreakChars(s: string)
    requires forall k :: 0 <= k < |s| ==> s[k] != '\n' && s[k] != '\r'
    ensures '\n' !in s && '\r' !in s
  {
  }

  lemma {:induction false} FormatRowsAreSingleLines(rows: seq<StockRow>)
    requires forall j :: 0 <= j < |rows| ==> '\n' !in rows[j].title && '\r' !in rows[j].title
    ensures forall k :: 0 <= k < |rows| ==> '\n' !in FormatRows(rows)[k] && '\r' !in FormatRows(rows)[k]
    decreases |rows|
  {
    if rows != [] {
      FormatRowsAreSingleLines(rows[1..]);
      FormatRowSingleLine(rows[0]);
      assert FormatRows(rows) == [FormatRow(rows[0])] + FormatRows(rows[1..]);
    }
  }

  lemma FormatRowSingleLine(r: StockRow)
    requires '\n' !in r.title && '\r' !in r.title
    ensures '\n' !in FormatRow(r) && '\r' !in FormatRow(r)
  {
    NumeralHasNoSpecials(r.id);
    NumeralHasNoSpecials(r.authorId);
    NumeralHasNoSpecials(r.qty);
    Text.JoinFour(Numerals.IntToString(r.id), r.title,
                  Numerals.IntToString(r.authorId), Numerals.IntToString(r.qty), ',');
  }

  /** The two header lines are comments and load nothing. */
  lemma HeadersLoadNothing()
    ensures Load([Header1, Header2]) == []
  {
    CommentLoadsNothing(Header1);
    CommentLoadsNothing(Header2);
    LoadAppend([Header1], [Header2]);
    assert [Header1] + [Header2] == [Header1, Header2];
  }

  /** A line that starts with `#` and has no surrounding spaces loads no row. */
  lemma CommentLoadsNothing(line: string)
    requires |line| > 0 && line[0] == '#' && !Text.IsSpace(line[|line| - 1])
    ensures Load([line]) == []
  {
    Text.StripKeeps(line);
    LoadOne(line);
  }

  /** Reading an export file back gives its lines. */
  lemma {:induction false} LinesOfExportText(rows: seq<StockRow>)
    requires forall k :: 0 <= k < |rows| ==> CleanTitle(rows[k].title)
    ensures Text.Lines(ExportText(rows)) == ExportLines(rows)
  {
    ExportLinesAreSingleLines(rows);
    Text.LinesOfWriteLines(ExportLines(rows));
  }

  /** Exporting a stock list and loading the file back yields the same
      rows in the same order, provided every row is writable. */
  lemma {:induction false} ExportLoadRoundTrip(rows: seq<StockRow>)
    requires forall k :: 0 <= k < |rows| ==> Writable(rows[k])
    ensures Load(Text.Lines(ExportText(rows))) == rows
  {
    assert forall k :: 0 <= k < |rows| ==> CleanTitle(rows[k].title);
    LinesOfExportText(rows);
    LoadAppend([Header1, Header2], FormatRows(rows));
    HeadersLoadNothing();
    LoadFormatRows(rows);
  }
}

=== FILE: text.dfy ===
/** The Python string primitives the stock-file format is built on:
    `str.strip()`, `str.split(',')` and line iteration over a text file
    opened with universal newlines. */
module Text {

  /** Python's `str.isspace()` for one character. */
  predicate IsSpace(c: char) {
    || c == ' '
    || ('\t' <= c <= '\r')
    || ('\U{1C}' <= c <= '\U{1F}')
    || c == '\U{85}' || c == '\U{A0}' || c == '\U{1680}'
    || ('\U{2000}' <= c <= '\U{200A}')
    || c == '\U{2028}' || c == '\U{2029}' || c == '\U{202F}'
    || c == '\U{205F}' || c == '\U{3000}'
  }

  /** Drops leading whitespace: the result is a suffix of `s` and
      everything dropped was whitespace. */
  function TrimLeft(s: string): (r: string)
    ensures |r| <= |s| && r == s[|s| - |r|..]
    ensures forall k :: 0 <= k < |s| - |r| ==> IsSpace(s[k])
    ensures r != [] ==> !IsSpace(r[0])
  {
    if |s| > 0 && IsSpace(s[0]) then TrimLeft(s[1..]) else s
  }

  /** Drops trailing whitespace: the result is a prefix of `s` and
      everything dropped was whitespace. */
  function TrimRight(s: string): (r: string)
    ensures |r| <= |s| && r == s[..|r|]
    ensures forall k :: |r| <= k < |s| ==> IsSpace(s[k])
    ensures r != [] ==> !IsSpace(r[|r| - 1])
  {
    if |s| > 0 && IsSpace(s[|s| - 1]) then TrimRight(s[..|s| - 1]) else s
  }

  /** Python's `str.strip()` with no argument. */
  function Strip(s: string): (r: string)
    ensures |r| <= |s|
    ensures r == [] || (!IsSpace(r[0]) && !IsSpace(r[|r| - 1]))
  {
    TrimRight(TrimLeft(s))
  }

  /** A string with no whitespace at either end is its own strip. */
  lemma StripKeeps(s: string)
    requires s == [] || (!IsSpace(s[0]) && !IsSpace(s[|s| - 1]))
    ensures Strip(s) == s
  {
  }

  /** Stripping twice is stripping once. */
  lemma {:induction false} StripIdempotent(s: string)
    ensures Strip(Strip(s)) == Strip(s)
  {
    StripKeeps(Strip(s));
  }

  /** Python's `sep.join(parts)` for a one-character separator. */
  function Join(parts: seq<string>, sep: char): string
    requires |parts| >= 1
  {
    if |parts| == 1 then parts[0] else parts[0] + [sep] + Join(parts[1..], sep)
  }

  /** Python's `s.split(sep)` for a one-character separator: the pieces
      between consecutive separators, so there is always one more piece
      than separators and the empty string splits into `[""]`. */
  function Split(s: string, sep: char): (parts: seq<string>)
    ensures |parts| >= 1
    ensures Join(parts, sep) == s
    ensures forall k :: 0 <= k < |parts| ==> sep !in parts[k]
  {
    if |s| == 0 then [""]
    else
      var rest := Split(s[1..], sep);
      if s[0] == sep then
        [""] + rest
      else
        assert Join([[s[0]] + rest[0]] + rest[1..], sep) == [s[0]] + Join(rest, sep) by {
          if |rest| > 1 {
            assert ([[s[0]] + rest[0]] + rest[1..])[1..] == rest[1..];
          }
        }
        assert s == [s[0]] + s[1..];
        [[s[0]] + rest[0]] + rest[1..]
  }

  /** Joining four pieces puts a separator between each pair. */
  lemma JoinFour(a: string, b: string, c: string, d: string, sep: char)
    ensures Join([a, b, c, d], sep) == a + [sep] + b + [sep] + c + [sep] + d
  {
    var p := [a, b, c, d];
    assert p[1..] == [b, c, d];
    assert p[1..][1..] == [c, d];
    assert p[1..][1..][1..] == [d];
    assert Join([c, d], sep) == c + [sep] + d;
    assert Join([b, c, d], sep) == b + [sep] + (c + [sep] + d);
  }

  /** A piece without the separator in front of a separator is split
      off on its own. */
  lemma {:induction false} SplitCons(a: string, rest: string, sep: char)
    requires sep !in a
    ensures Split(a + [sep] + rest, sep) == [a] + Split(rest, sep)
    decreases |a|
  {
    var s := a + [sep] + rest;
    if a == [] {
      assert s[1..] == rest;
    } else {
      assert s[1..] == a[1..] + [sep] + rest;
      SplitCons(a[1..], rest, sep);
      assert [a[0]] + a[1..] == a;
    }
  }

  /** A string without the separator splits into itself. */
  lemma {:induction false} SplitNoSep(a: string, sep: char)
    requires sep !in a
    ensures Split(a, sep) == [a]
    decreases |a|
  {
    if a != [] {
      SplitNoSep(a[1..], sep);
      assert [a[0]] + a[1..] == a;
    }
  }

  /** Splitting undoes joining pieces that do not contain the separator:
      together with the contract of `Split` this makes the two inverse. */
  lemma {:induction false} SplitJoin(parts: seq<string>, sep: char)
    requires |parts| >= 1
    requires forall k :: 0 <= k < |parts| ==> sep !in parts[k]
    ensures Split(Join(parts, sep), sep) == parts
    decreases |parts|
  {
    if |parts| == 1 {
      SplitNoSep(parts[0], sep);
    } else {
      SplitJoin(parts[1..], sep);
      SplitCons(parts[0], Join(parts[1..], sep), sep);
      assert [parts[0]] + parts[1..] == parts;
    }
  }

  /** Universal-newline translation done by Python's text-mode reader:
      `\r\n` and a lone `\r` both become `\n`. */
  function NormalizeNewlines(s: string): (r: string)
    ensures '\r' !in r
  {
    if |s| == 0 then ""
    else if s[0] == '\r' then
      if |s| > 1 && s[1] == '\n' then "\n" + NormalizeNewlines(s[2..])
      else "\n" + NormalizeNewlines(s[1..])
    else [s[0]] + NormalizeNewlines(s[1..])
  }

  /** Text without carriage returns is left as it is. */
  lemma {:induction false} NormalizeKeeps(s: string)
    requires '\r' !in s
    ensures NormalizeNewlines(s) == s
    decreases |s|
  {
    if |s| > 0 {
      NormalizeKeeps(s[1..]);
      assert [s[0]] + s[1..] == s;
    }
  }

  /** The lines a `for line in file` loop sees, without their line
      terminators: a final terminator does not start an extra empty line,
      and empty text has no lines. */
  function Lines(text: string): (lines: seq<string>)
    ensures forall k :: 0 <= k < |lines| ==> '\n' !in lines[k] && '\r' !in lines[k]
  {
    var normal := NormalizeNewlines(text);
    var parts := Split(normal, '\n');
    assert forall k :: 0 <= k < |parts| ==> '\r' !in parts[k] by {
      forall k | 0 <= k < |parts|
        ensures '\r' !in parts[k]
      {
        JoinContainsParts(parts, '\n', k);
      }
    }
    if parts[|parts| - 1] == "" then parts[..|parts| - 1] else parts
  }

  /** Every character of a piece occurs in the joined string. */
  lemma {:induction false} JoinContainsParts(parts: seq<string>, sep: char, k: nat)
    requires |parts| >= 1 && k < |parts|
    ensures forall c :: c in parts[k] ==> c in Join(parts, sep)
    decreases |parts|
  {
    if k > 0 {
      JoinContainsParts(parts[1..], sep, k - 1);
    }
  }

  /** What `file.write(line + "\n")` for each line leaves in the file. */
  function WriteLines(lines: seq<string>): string
  {
    if lines == [] then "" else lines[0] + "\n" + WriteLines(lines[1..])
  }

  /** Reading back what was written yields the same lines, provided no
      line contains a line break of its own. */
  lemma {:induction false} LinesOfWriteLines(lines: seq<string>)
    requires forall k :: 0 <= k < |lines| ==> '\n' !in lines[k] && '\r' !in lines[k]
    ensures Lines(WriteLines(lines)) == lines
  {
    NoCarriageReturn(lines);
    NormalizeKeeps(WriteLines(lines));
    SplitWriteLines(lines);
    assert (lines + [""])[..|lines|] == lines;
  }

  lemma {:induction false} NoCarriageReturn(lines: seq<string>)
    requires forall k :: 0 <= k < |lines| ==> '\r' !in lines[k]
    ensures '\r' !in WriteLines(lines)
    decreases |lines|
  {
    if lines != [] {
      NoCarriageReturn(lines[1..]);
    }
  }

  lemma {:induction false} SplitWriteLines(lines: seq<string>)
    requires forall k :: 0 <= k < |lines| ==> '\n' !in lines[k]
    ensures Split(WriteLines(lines), '\n') == lines + [""]
    decreases |lines|
  {
    if lines != [] {
      SplitWriteLines(lines[1..]);
      assert lines[0] + "\n" + WriteLines(lines[1..]) == lines[0] + ['\n'] + WriteLines(lines[1..]);
      SplitCons(lines[0], WriteLines(lines[1..]), '\n');
      assert [lines[0]] + (lines[1..] + [""]) == lines + [""];
    }
  }
}

=== FILE: update.dfy ===
/** Updating a book (`update_book`): its title, its quantity, or its
    author through the author sub-menu (`update_author`,
    `update_auth_name`). */
module Update {
  import opened Outcomes
  import opened Inventory
  import IdOrder
  import Numerals

  /** `UPDATE book SET title = ? WHERE id = ?`: any title, duplicates included. */
  function UpdateTitle(s: Store, bookId: int, title: string): (r: Store)
    ensures r.authors == s.authors
    ensures r.books.Keys == s.books.Keys
    ensures forall id :: id in s.books && id != bookId ==> r.books[id] == s.books[id]
    ensures bookId in s.books ==>
      && r.books[bookId].title == title
      && r.books[bookId].authorId == s.books[bookId].authorId
      && r.books[bookId].qty == s.books[bookId].qty
  {
    if bookId in s.books then s.(books := s.books[bookId := s.books[bookId].(title := title)]) else s
  }

  /** `UPDATE book SET qty = ? WHERE id = ?`: any integer that binds as a
      SQLite INTEGER, negatives included. Binding any other raises
      `OverflowError`, which `update_book` does not catch. */
  function UpdateQty(s: Store, bookId: int, qty: int): (r: Result<Store, UpdateError>)
    ensures r.Err? <==> !Numerals.FitsInt64(qty)
    ensures r.Err? ==> r.error == QtyOutOfRange
    ensures r.Ok? ==>
      && r.value.authors == s.authors
      && r.value.books.Keys == s.books.Keys
      && (forall id :: id in s.books && id != bookId ==> r.value.books[id] == s.books[id])
      && (bookId in s.books ==>
            && r.value.books[bookId].qty == qty
            && r.value.books[bookId].title == s.books[bookId].title
            && r.value.books[bookId].authorId == s.books[bookId].authorId)
  {
    if !Numerals.FitsInt64(qty) then Err(QtyOutOfRange)
    else if bookId in s.books then Ok(s.(books := s.books[bookId := s.books[bookId].(qty := qty)]))
    else Ok(s)
  }

  /** Some row of `book INNER JOIN author` carries the author name. */
  predicate NameOnFile(s: Store, name: string) {
    exists id :: id in s.books && s.books[id].authorId in s.authors && s.authors[s.books[id].authorId].name == name
  }

  /** The books whose joined author row carries `name`. */
  function NameMatches(s: Store, name: string): (ids: set<int>)
    ensures forall id :: id in ids <==>
      id in s.books && s.books[id].authorId in s.authors && s.authors[s.books[id].authorId].name == name
  {
    set id | id in s.books && s.books[id].authorId in s.authors && s.authors[s.books[id].authorId].name == name
  }

  /** The author id of the first joined row whose author name is `name`,
      as `fetchone()` returns it; rows are met in ascending book id. */
  function FirstMatch(s: Store, name: string): (r: Option<int>)
    ensures r.Some? <==> NameOnFile(s, name)
    ensures r.Some? ==> r.value in s.authors && s.authors[r.value].name == name && Referenced(s.books, r.value)
    ensures r.Some? ==> exists b :: b in NameMatches(s, name) && s.books[b].authorId == r.value
                                    && forall c :: c in NameMatches(s, name) ==> b <= c
  {
    var ids := NameMatches(s, name);
    if ids == {} then None
    else
      var b := IdOrder.Least(ids);
      Some(s.books[b].authorId)
  }

  /** Every author id in `after` was already named by a book of `before`. */
  predicate AuthorIdsFrom(after: map<int, Book>, before: map<int, Book>) {
    forall id :: id in after ==> Referenced(before, after[id].authorId)
  }

  lemma AuthorIdsFromTransitive(a: map<int, Book>, b: map<int, Book>, c: map<int, Book>)
    requires AuthorIdsFrom(b, a) && AuthorIdsFrom(c, b)
    ensures AuthorIdsFrom(c, a)
  {
    forall id | id in c
      ensures Referenced(a, c[id].authorId)
    {
      var other :| other in b && b[other].authorId == c[id].authorId;
    }
  }

  /** `update_auth_name`: when the new name is already on file, the
      selected book is repointed to the author of the first matching
      joined row and no author row changes (the previous author row
      stays, even if nothing refers to it any more); otherwise the
      selected author row is renamed in place. */
  function UpdateAuthName(s: Store, sel: Selection, name: string): (r: Store)
    ensures r.books.Keys == s.books.Keys
    ensures AuthorIdsFrom(r.books, s.books)
    ensures NameOnFile(s, name) ==>
      && r.authors == s.authors
      && (forall id :: id in s.books && id != sel.bookId ==> r.books[id] == s.books[id])
      && (sel.bookId in s.books ==>
            var b := r.books[sel.bookId];
            && b.title == s.books[sel.bookId].title && b.qty == s.books[sel.bookId].qty
            && b.authorId == FirstMatch(s, name).value
            && b.authorId in s.authors && s.authors[b.authorId].name == name)
    ensures !NameOnFile(s, name) ==>
      && r.books == s.books
      && r.authors.Keys == s.authors.Keys
      && (forall a :: a in s.authors && a != sel.authorId ==> r.authors[a] == s.authors[a])
      && (sel.authorId in s.authors ==> r.authors[sel.authorId] == s.authors[sel.authorId].(name := name))
  {
    match FirstMatch(s, name)
    case Some(target) =>
      if sel.bookId in s.books then
        RepointKeepsAuthorIds(s.books, sel.bookId, target);
        s.(books := s.books[sel.bookId := s.books[sel.bookId].(authorId := target)])
      else
        AuthorIdsFromSelf(s.books);
        s
    case None =>
      AuthorIdsFromSelf(s.books);
      if sel.authorId in s.authors then
        s.(authors := s.authors[sel.authorId := s.authors[sel.authorId].(name := name)])
      else s
  }

  /** `UPDATE author SET country = ? WHERE id = ?` */
  function UpdateCountry(s: Store, authorId: int, country: string): (r: Store)
    ensures r.books == s.books
    ensures r.authors.Keys == s.authors.Keys
    ensures forall a :: a in s.authors && a != authorId ==> r.authors[a] == s.authors[a]
    ensures authorId in s.authors ==> r.authors[authorId] == s.authors[authorId].(country := country)
  {
    if authorId in s.authors then
      s.(authors := s.authors[authorId := s.authors[authorId].(country := country)])
    else s
  }

  /** After a country edit every book by that author shows the new country. */
  lemma CountryEditReflectedByAllBooks(s: Store, authorId: int, country: string, bookId: int)
    requires authorId in s.authors
    requires bookId in s.books && s.books[bookId].authorId == authorId
    ensures Select(UpdateCountry(s, authorId, country), bookId).Some?
    ensures Select(UpdateCountry(s, authorId, country), bookId).value.country == country
    ensures Select(UpdateCountry(s, authorId, country), bookId).value.name == s.authors[authorId].name
  {
  }

  /** One choice in the author sub-menu. */
  datatype AuthorEdit = Rename(name: string) | Recountry(country: string)

  /** What the author sub-menu can change from `s` to `r`: no book or
      author id comes or goes, every title and quantity stays, only the
      selected book and the selected author row can change, and a book
      only ever names an author id some book already named. */
  predicate EditFrame(s: Store, sel: Selection, r: Store) {
    && r.books.Keys == s.books.Keys
    && (forall id :: id in s.books ==>
          r.books[id].title == s.books[id].title && r.books[id].qty == s.books[id].qty)
    && (forall id :: id in s.books && id != sel.bookId ==> r.books[id] == s.books[id])
    && r.authors.Keys == s.authors.Keys
    && (forall a :: a in s.authors && a != sel.authorId ==> r.authors[a] == s.authors[a])
    && AuthorIdsFrom(r.books, s.books)
  }

  lemma EditFrameTransitive(s: Store, sel: Selection, t: Store, r: Store)
    requires EditFrame(s, sel, t) && EditFrame(t, sel, r)
    ensures EditFrame(s, sel, r)
  {
    AuthorIdsFromTransitive(s.books, t.books, r.books);
  }

  /** One sub-menu choice: `1` renames through `update_auth_name`, `2`
      sets the country of the author id read at selection. */
  function ApplyEdit(s: Store, sel: Selection, e: AuthorEdit): (r: Store)
    ensures EditFrame(s, sel, r)
    ensures NoDangling(s) ==> NoDangling(r)
  {
    match e
    case Rename(name) =>
      RenameInFrame(s, sel, name);
      UpdateAuthName(s, sel, name)
    case Recountry(country) =>
      UpdateCountry(s, sel.authorId, country)
  }

  lemma RenameInFrame(s: Store, sel: Selection, name: string)
    ensures EditFrame(s, sel, UpdateAuthName(s, sel, name))
    ensures NoDangling(s) ==> NoDangling(UpdateAuthName(s, sel, name))
  {
    if NameOnFile(s, name) && sel.bookId in s.books {
      RepointWhenNameOnFile(s, sel, name);
      RepointInFrame(s, sel, FirstMatch(s, name).value);
    } else {
      AuthorIdsFromSelf(s.books);
    }
  }

  /** A rename to a name on file changes exactly the selected book's author id. */
  lemma RepointWhenNameOnFile(s: Store, sel: Selection, name: string)
    requires sel.bookId in s.books && NameOnFile(s, name)
    ensures UpdateAuthName(s, sel, name)
         == s.(books := s.books[sel.bookId := s.books[sel.bookId].(authorId := FirstMatch(s, name).value)])
  {
  }

  /** Pointing the selected book at an author id some book names, and
      whose row is on file, stays within the sub-menu's frame. */
  lemma RepointInFrame(s: Store, sel: Selection, x: int)
    requires sel.bookId in s.books && Referenced(s.books, x) && x in s.authors
    ensures EditFrame(s, sel, s.(books := s.books[sel.bookId := s.books[sel.bookId].(authorId := x)]))
    ensures NoDangling(s) ==> NoDangling(s.(books := s.books[sel.bookId := s.books[sel.bookId].(authorId := x)]))
  {
    RepointKeepsAuthorIds(s.books, sel.bookId, x);
  }

  /** Pointing one book at an author id some book names introduces no new
      author id. */
  lemma RepointKeepsAuthorIds(books: map<int, Book>, bookId: int, x: int)
    requires bookId in books && Referenced(books, x)
    ensures AuthorIdsFrom(books[bookId := books[bookId].(authorId := x)], books)
  {
    var after := books[bookId := books[bookId].(authorId := x)];
    forall id | id in after
      ensures Referenced(books, after[id].authorId)
    {
      if id != bookId {
        assert after[id] == books[id];
      }
    }
  }

  lemma AuthorIdsFromSelf(books: map<int, Book>)
    ensures AuthorIdsFrom(books, books)
  {
    forall id | id in books
      ensures Referenced(books, books[id].authorId)
    {
    }
  }

  /** The author sub-menu loop. The selection is read once before the
      loop, so every edit addresses the author id the book had when it
      was selected, even after a rename has repointed the book. */
  function ApplyAuthorEdits(s: Store, sel: Selection, edits: seq<AuthorEdit>): (r: Store)
    ensures edits == [] ==> r == s
    ensures EditFrame(s, sel, r)
    ensures NoDangling(s) ==> NoDangling(r)
    decreases |edits|
  {
    if edits == [] then s
    else
      var next := ApplyEdit(s, sel, edits[0]);
      var r := ApplyAuthorEdits(next, sel, edits[1..]);
      EditFrameTransitive(s, sel, next, r);
      r
  }

  /** A single sub-menu choice is the rename or the country edit, both
      addressed through the selection read before the loop. */
  lemma ApplySingleEdit(s: Store, sel: Selection, e: AuthorEdit)
    ensures e.Rename? ==> ApplyAuthorEdits(s, sel, [e]) == UpdateAuthName(s, sel, e.name)
    ensures e.Recountry? ==> ApplyAuthorEdits(s, sel, [e]) == UpdateCountry(s, sel.authorId, e.country)
  {
    assert [e][1..] == [];
  }

  /** The sub-menu applies its choices one after the other, each to the
      store the previous ones left. */
  lemma {:induction false} ApplyAuthorEditsAppend(s: Store, sel: Selection, first: seq<AuthorEdit>,
                                                 rest: seq<AuthorEdit>)
    ensures ApplyAuthorEdits(s, sel, first + rest)
         == ApplyAuthorEdits(ApplyAuthorEdits(s, sel, first), sel, rest)
    decreases |first|
  {
    if first == [] {
      assert first + rest == rest;
    } else {
      assert (first + rest)[0] == first[0];
      assert (first + rest)[1..] == first[1..] + rest;
      ApplyAuthorEditsAppend(ApplyEdit(s, sel, first[0]), sel, first[1..], rest);
    }
  }

  /** `update_author`: when other books share the selected author and the
      operator does not confirm, nothing changes; otherwise the sub-menu
      edits are applied in order. */
  function UpdateAuthor(s: Store, sel: Selection, confirmed: bool, edits: seq<AuthorEdit>): (r: Store)
    requires Select(s, sel.bookId) == Some(sel)
    ensures (exists id :: id in s.books && id != sel.bookId && s.books[id].authorId == sel.authorId) && !confirmed
            ==> r == s
    ensures !((exists id :: id in s.books && id != sel.bookId && s.books[id].authorId == sel.authorId) && !confirmed)
            ==> r == ApplyAuthorEdits(s, sel, edits)
    ensures EditFrame(s, sel, r)
    ensures NoDangling(s) ==> NoDangling(r)
  {
    SharedIffOtherBook(s, sel);
    if CountByAuthor(s.books, sel.authorId) > 1 && !confirmed then s
    else ApplyAuthorEdits(s, sel, edits)
  }

  /** The count exceeds one exactly when a book other than the selected
      one names the same author. */
  lemma SharedIffOtherBook(s: Store, sel: Selection)
    requires Select(s, sel.bookId) == Some(sel)
    ensures CountByAuthor(s.books, sel.authorId) > 1 <==>
            exists id :: id in s.books && id != sel.bookId && s.books[id].authorId == sel.authorId
  {
    var ids := BooksBy(s.books, sel.authorId);
    assert sel.bookId in ids;
    if exists id :: id in s.books && id != sel.bookId && s.books[id].authorId == sel.authorId {
      var id :| id in s.books && id != sel.bookId && s.books[id].authorId == sel.authorId;
      assert {sel.bookId, id} <= ids;
      assert |{sel.bookId, id}| == 2;
      SubsetCard({sel.bookId, id}, ids);
    } else {
      assert ids == {sel.bookId};
    }
  }

  lemma SubsetCard(a: set<int>, b: set<int>)
    requires a <= b
    ensures |a| <= |b|
  {
    assert b == a + (b - a);
  }

  /** What the update sub-menu asks for. */
  datatype UpdateRequest =
    | NewTitle(title: string)
    | NewQty(qty: int)
    | AuthorEdits(confirmed: bool, edits: seq<AuthorEdit>)
    | Cancel

  /** The update sub-menu reads one line and lower-cases it: `t`, `a` or
      `x`, or else an integer quantity; anything else changes nothing.
      The new title and the author sub-menu's answers come from later
      prompts. */
  function ParseUpdateChoice(text: string, title: string, confirmed: bool, edits: seq<AuthorEdit>): (r: UpdateRequest)
    ensures r == NewTitle(title) <==> text in {"t", "T"}
    ensures r == AuthorEdits(confirmed, edits) <==> text in {"a", "A"}
    ensures r.NewQty? <==> text !in {"t", "T", "a", "A", "x", "X"} && Numerals.ParseInt(text).Some?
    ensures r.NewQty? ==> Numerals.ParseInt(text) == Some(r.qty)
    ensures r.Cancel? <==> text in {"x", "X"} ||
                           (text !in {"t", "T", "a", "A"} && Numerals.ParseInt(text).None?)
  {
    if text == "t" || text == "T" then NewTitle(title)
    else if text == "a" || text == "A" then AuthorEdits(confirmed, edits)
    else if text == "x" || text == "X" then Cancel
    else
      match Numerals.ParseInt(text)
      case Some(n) => NewQty(n)
      case None => Cancel
  }

  /** Typing the numeral of any integer, negative ones included, asks for
      that quantity, unless it has more digits than `int()` reads, when
      the answer is refused as invalid. */
  lemma {:induction false} NumeralAsksForQuantity(n: int, title: string, confirmed: bool, edits: seq<AuthorEdit>)
    ensures ParseUpdateChoice(Numerals.IntToString(n), title, confirmed, edits)
         == if Numerals.Printable(n) then NewQty(n) else Cancel
  {
    var text := Numerals.IntToString(n);
    Numerals.ParseIntOfIntToString(n);
    assert text[0] == '-' || Numerals.IsDigit(text[0]);
    assert text !in {"t", "T", "a", "A", "x", "X"};
  }

  /** An answer starting with one of the separators U+001C to U+001F is
      no quantity: `int()` refuses it, and the sub-menu changes nothing. */
  lemma SeparatorAnswerCancels(text: string, title: string, confirmed: bool, edits: seq<AuthorEdit>)
    requires |text| > 0 && '\U{1C}' <= text[0] <= '\U{1F}'
    ensures ParseUpdateChoice(text, title, confirmed, edits) == Cancel
  {
    Numerals.SeparatorRefused(text);
  }

  datatype UpdateError =
    | IdOutOfRange    // the selecting SELECT cannot bind the id as a 64-bit integer
    | NoSuchBook      // the id selects no joined book row
    | QtyOutOfRange   // the qty UPDATE cannot bind the value as a 64-bit integer

  /** `update_book`: select a book by id, then apply the request. An id
      outside the 64-bit range fails in `select_book`'s SELECT before any
      row is read. */
  function UpdateBook(s: Store, bookId: int, req: UpdateRequest): (r: Result<Store, UpdateError>)
    ensures r == Err(IdOutOfRange) <==> !Numerals.FitsInt64(bookId)
    ensures r == Err(NoSuchBook) <==> Numerals.FitsInt64(bookId) && Select(s, bookId).None?
    ensures r == Err(QtyOutOfRange) <==>
      Numerals.FitsInt64(bookId) && Select(s, bookId).Some? && req.NewQty? && !Numerals.FitsInt64(req.qty)
    ensures r.Ok? ==> r.value.books.Keys == s.books.Keys && r.value.authors.Keys == s.authors.Keys
    ensures r.Ok? ==> AuthorIdsFrom(r.value.books, s.books)
    ensures r.Ok? && req.Cancel? ==> r.value == s
    ensures r.Ok? && req.NewTitle? ==> r.value == UpdateTitle(s, bookId, req.title)
    ensures r.Ok? && req.NewQty? ==> r == UpdateQty(s, bookId, req.qty)
    ensures r.Ok? && req.AuthorEdits? ==>
      && Select(s, bookId).Some?
      && r.value == UpdateAuthor(s, Select(s, bookId).value, req.confirmed, req.edits)
  {
    if !Numerals.FitsInt64(bookId) then Err(IdOutOfRange)
    else match Select(s, bookId)
    case None => Err(NoSuchBook)
    case Some(sel) =>
      match req
      case NewTitle(title) => Ok(UpdateTitle(s, bookId, title))
      case NewQty(qty) => UpdateQty(s, bookId, qty)
      case AuthorEdits(confirmed, edits) => Ok(UpdateAuthor(s, sel, confirmed, edits))
      case Cancel => Ok(s)
  }

  /** A title update keeps the store consistent. */
  lemma TitleUpdatePreservesConsistent(s: Store, bookId: int, title: string)
    requires Consistent(s)
    ensures Consistent(UpdateTitle(s, bookId, title))
  {
    var t := UpdateTitle(s, bookId, title);
    forall a | a in t.authors
      ensures Referenced(t.books, a)
    {
      var id :| id in s.books && s.books[id].authorId == a;
      assert t.books[id].authorId == a;
    }
  }

  /** A quantity update keeps the store consistent. */
  lemma QtyUpdatePreservesConsistent(s: Store, bookId: int, qty: int)
    requires Consistent(s)
    requires UpdateQty(s, bookId, qty).Ok?
    ensures Consistent(UpdateQty(s, bookId, qty).value)
  {
    var t := UpdateQty(s, bookId, qty).value;
    forall a | a in t.authors
      ensures Referenced(t.books, a)
    {
      var id :| id in s.books && s.books[id].authorId == a;
      assert t.books[id].authorId == a;
    }
  }

  /** A duplicate title is accepted: retitling a book after another one
      leaves two books with the same title. */
  lemma DuplicateTitleAccepted(s: Store, bookId: int, other: int)
    requires bookId in s.books && other in s.books && other != bookId
    ensures UpdateTitle(s, bookId, s.books[other].title).books[bookId].title
         == UpdateTitle(s, bookId, s.books[other].title).books[other].title
  {
  }

  /** A country edit or an in-place rename keeps the store consistent. */
  lemma AuthorFieldEditsPreserveConsistent(s: Store, sel: Selection, name: string, country: string)
    requires Consistent(s)
    requires !NameOnFile(s, name)
    ensures Consistent(UpdateCountry(s, sel.authorId, country))
    ensures Consistent(UpdateAuthName(s, sel, name))
  {
  }

  /** Every update leaves each book's author row on file. */
  lemma UpdateBookKeepsNoDangling(s: Store, bookId: int, req: UpdateRequest)
    requires NoDangling(s)
    requires UpdateBook(s, bookId, req).Ok?
    ensures NoDangling(UpdateBook(s, bookId, req).value)
  {
    var t := UpdateBook(s, bookId, req).value;
    if req.NewTitle? || req.NewQty? {
      forall id | id in t.books
        ensures t.books[id].authorId in t.authors
      {
        assert t.books[id].authorId == s.books[id].authorId;
      }
    }
  }

  /** A title or quantity update, or a cancelled one, keeps the store
      consistent. */
  lemma FieldUpdateKeepsConsistent(s: Store, bookId: int, req: UpdateRequest)
    requires Consistent(s)
    requires !req.AuthorEdits?
    requires UpdateBook(s, bookId, req).Ok?
    ensures Consistent(UpdateBook(s, bookId, req).value)
  {
    if req.NewTitle? {
      assert UpdateBook(s, bookId, req).value == UpdateTitle(s, bookId, req.title);
      TitleUpdatePreservesConsistent(s, bookId, req.title);
    } else if req.NewQty? {
      assert UpdateBook(s, bookId, req) == UpdateQty(s, bookId, req.qty);
      QtyUpdatePreservesConsistent(s, bookId, req.qty);
    }
  }

  /** Every update keeps every number in the book table a SQLite INTEGER. */
  lemma UpdateBookKeepsSqlIntegers(s: Store, bookId: int, req: UpdateRequest)
    requires SqlIntegers(s)
    requires UpdateBook(s, bookId, req).Ok?
    ensures SqlIntegers(UpdateBook(s, bookId, req).value)
  {
    var t := UpdateBook(s, bookId, req).value;
    assert AuthorIdsFrom(t.books, s.books);
    forall id | id in t.books
      ensures Numerals.FitsInt64(t.books[id].authorId)
    {
      var other :| other in s.books && s.books[other].authorId == t.books[id].authorId;
    }
    forall id | id in t.books
      ensures Numerals.FitsInt64(id) && Numerals.FitsInt64(t.books[id].qty)
    {
      if !(req.NewQty? && id == bookId) {
        assert t.books[id].qty == s.books[id].qty;
      }
    }
  }
}

=== FILE: update_examples.dfy ===
/** Worked examples of the author sub-menu on a two-book store. */
module UpdateExamples {
  import opened Outcomes
  import opened Inventory
  import opened Update

  /** Book 4001 by Jane Doe (author 2001), book 4002 by John Smith (author 3001). */
  function TwoAuthors(): Store {
    Store(map[4001 := Book("First", 2001, 5), 4002 := Book("Second", 3001, 7)],
          map[2001 := Author("Jane Doe", "England"), 3001 := Author("John Smith", "Wales")])
  }

  function SelectSecond(): Selection {
    Selection(4002, "Second", 3001, "John Smith", "Wales", 7)
  }

  lemma TwoAuthorsConsistent()
    ensures Consistent(TwoAuthors())
    ensures Select(TwoAuthors(), 4002) == Some(SelectSecond())
  {
    var s := TwoAuthors();
    assert s.books[4001].authorId == 2001;
    assert s.books[4002].authorId == 3001;
  }

  /** The store after book 4002 is repointed to author 2001. */
  function Repointed(): Store {
    Store(map[4001 := Book("First", 2001, 5), 4002 := Book("Second", 2001, 7)],
          map[2001 := Author("Jane Doe", "England"), 3001 := Author("John Smith", "Wales")])
  }

  /** Renaming the author of book 4002 to "Jane Doe" finds that name on
      file under author 2001 and repoints the book; no author row changes. */
  lemma RenameToExistingNameRepoints()
    ensures UpdateAuthName(TwoAuthors(), SelectSecond(), "Jane Doe") == Repointed()
  {
    var s := TwoAuthors();
    assert FirstMatch(s, "Jane Doe") == Some(2001) by {
      assert s.books[4001].authorId in s.authors && s.authors[s.books[4001].authorId].name == "Jane Doe";
      assert NameMatches(s, "Jane Doe") == {4001} by {
        assert s.authors[s.books[4002].authorId].name != "Jane Doe";
      }
    }
    var books := s.books[4002 := s.books[4002].(authorId := 2001)];
    assert books == Repointed().books by {
      assert books.Keys == {4001, 4002} == Repointed().books.Keys;
      assert books[4001] == Repointed().books[4001] && books[4002] == Repointed().books[4002];
    }
    RepointWhenNameOnFile(s, SelectSecond(), "Jane Doe");
  }


  /** After that repoint author 3001 is still on file but no book refers
      to it: the rename breaks the no-orphan invariant that entering and
      deleting keep. */
  lemma RepointLeavesOrphan()
    ensures Consistent(TwoAuthors())
    ensures 3001 in Repointed().authors && !Referenced(Repointed().books, 3001)
    ensures !NoOrphans(Repointed())
  {
    TwoAuthorsConsistent();
    var t := Repointed();
    assert t.books.Keys == {4001, 4002};
    assert t.books[4001].authorId == 2001 && t.books[4002].authorId == 2001;
  }

  /** The sub-menu keeps the selection it started with: after a rename
      repoints book 4002 to author 2001, a country edit still goes to
      author 3001, so book 4002's joined row does not show the new country. */
  lemma CountryEditAfterRepointTargetsOldAuthor()
    ensures ApplyAuthorEdits(TwoAuthors(), SelectSecond(), [Rename("Jane Doe"), Recountry("France")])
         == UpdateCountry(Repointed(), 3001, "France")
    ensures Select(UpdateCountry(Repointed(), 3001, "France"), 4002)
         == Some(Selection(4002, "Second", 2001, "Jane Doe", "England", 7))
  {
    var s := TwoAuthors();
    var sel := SelectSecond();
    assert [Rename("Jane Doe")] + [Recountry("France")] == [Rename("Jane Doe"), Recountry("France")];
    ApplyAuthorEditsAppend(s, sel, [Rename("Jane Doe")], [Recountry("France")]);
    RenameToExistingNameRepoints();
    ApplySingleEdit(s, sel, Rename("Jane Doe"));
    ApplySingleEdit(Repointed(), sel, Recountry("France"));
    RepointedBookKeepsNewAuthor();
  }

  lemma RepointedBookKeepsNewAuthor()
    ensures Select(UpdateCountry(Repointed(), 3001, "France"), 4002)
         == Some(Selection(4002, "Second", 2001, "Jane Doe", "England", 7))
  {
    var t := UpdateCountry(Repointed(), 3001, "France");
    assert t.books == Repointed().books;
    assert t.authors[2001] == Repointed().authors[2001];
  }
}
